=== FILE: README.md ===
# winFuse adapter core in Dafny

This project models the adapter layer of winFuse, a FUSE filesystem that mounts an object-storage bucket and keeps directory bookkeeping in a transactional key-value store. The model covers:

- the filesystem callbacks of `base/fs.go`: `Getattr`, `Readdir`, `Create`, `Mkdir`, `Unlink`, `Rmdir`, `Open`, `Read`, `Write`, `Release` and `Rename`, with its helpers `renameDirectory`, `isDirectory`, `renameFile` and `insertAtPosition`, and one tick of `ScanEmptyDirAuto`;
- the metadata key codec and the transaction wrapper of `meta/meta-store.go`: `GetPathKey`, `GetObjKey`, `ExecuteTxn` and `RmdirAuto`.

Each callback is a pure step function. It takes the adapter state `Fs` and the answers of the remote calls it makes, and returns the callback's return code together with the new state (`Reply`). The state has four parts:

- the bucket, a finite map from key to bytes;
- the metadata store, a map from key to value;
- the files of the local staging directory, by name;
- the name of the file the shared `CacheFile` field last opened.

Remote services are abstract:

- Every call that can fail gets a failure flag. Loops get the set of listing positions whose call fails.
- Every prefix listing is an input sequence, a snapshot taken once per listing call. Items whose `Err` is set are a separate constructor.
- `Faithful` and `Probe` in `ObjStore` say when a listing agrees with the store. The laws that need an honest listing assume them.

A transaction is a snapshot plus a buffered delete set. The deletes reach the store only on commit.

Files:

- `common.dfy`: bytes and `Option`.
- `gostrings.dfy`: Go's `strings` trims and tests.
- `objstore.dfy`: the store, listings and store relations.
- `keycodec.dfy`: the key codec.
- `metastore.dfy`: transactions, `ExecuteTxn` and `RmdirAuto`.
- `adapter.dfy`: the state, error numbers and modes.
- `attr.dfy`: `Getattr` and `Readdir`.
- `fsops.dfy`: create, mkdir, unlink, rmdir, open and read.
- `staging.dfy`: write and release.
- `rename.dfy`: rename.
- `reconciler.dfy`: the scan tick.

Behaviour of the code worth knowing, which the model follows:

- `GetPathKey` uses the literal segment `Bucket` (meta/meta-store.go:47), not the bucket's name.
- `Readdir("/")` emits no `..` entry (base/fs.go:104). `Attr.RootListingScenario` states it.
- `Write` fetches the object under the untrimmed path (base/fs.go:302). A missing object makes `io.Copy` fail, so `Write` returns `-EIO`.
- The staging file is opened without truncation (base/fs.go:300). The copied object is therefore laid over whatever an earlier write left in a file of the same name. `Staging.Staged` and `Staging.WriteAtZeroLayout` state this.
- `Release` uploads the file `CacheFile` last named, whatever path it is given (base/fs.go:280-282). `Staging.ReleaseUploadsLastStaged` shows one path's data landing under another path's name.
- `Read` trims the mount point, not `/`, from the path (base/fs.go:252). It fails at offset 0 (base/fs.go:265-267).
- Renaming a file onto itself deletes it when the destination stat fails (base/fs.go:349), the source stat of the same key succeeds (base/fs.go:422), the store accepts the compose of the object onto itself (base/fs.go:426-432) and the deferred delete succeeds (base/fs.go:438-442). A store that refuses the self-copy gives `-EIO` and loses nothing. `Rename.RenameOntoItselfLosesFile` states the first case.
- A failed stat that is not a missing key counts as absence in `Create`, `Mkdir`, `Getattr`, `Rename` and `renameFile`. `Open` is the exception and reports it as `-EIO`.

## Model

| member | source | states |
|---|---|---|
| `Attr.Getattr` | base/fs.go:61-95 | The root and any name ending in `/` are directories without a lookup. Otherwise an exact-key object is a regular file of its own size, before any child probe. The result is 0 with attributes, or `-ENOENT` without them. |
| `Attr.GetattrClassifies` | base/fs.go:61-95 | With healthy calls and an honest probe, the directory, regular-file and `-ENOENT` answers hold exactly when the flat-key rules say so, in both directions. |
| `Attr.Dots` | base/fs.go:102-106 | `.` comes first, and `..` is emitted exactly when the path is not `/`. |
| `Attr.Readdir` | base/fs.go:96-146 | Returns 0. It emits the dot entries, then the listing's entries computed with a seen-set. The result equals the reference listing, which keeps an object exactly when its name is not among the names of the objects before it. |
| `Attr.FirstEntriesDistinct` | base/fs.go:113-143 | The listing part never emits a name twice. |
| `Attr.FirstEntriesFromKept` | base/fs.go:115-143 | Every emitted listing entry comes from a listed object whose name had not appeared before, with that object's mode and size. Error items are skipped. |
| `Attr.KeptInFirstEntries` | base/fs.go:115-143 | Every object whose name is new at its position is emitted. |
| `Attr.FirstOccurrenceWins` | base/fs.go:120-142 | Every listed object's name is emitted. Its entry is the first occurrence's, so that key decides directory or file mode. |
| `Attr.SeenNamesMeans` | base/fs.go:113-142 | The `processed` set holds exactly the names of the object items seen so far. |
| `Attr.KeptMeansFirst` | base/fs.go:130-132 | An item passes the `processed` test exactly when it is an object and no earlier object has the same name. |
| `Attr.ReaddirDistinct` | base/fs.go:102-143 | When no listed name is `.` or `..`, no two entries of the whole reply share a name. |
| `Attr.RootListingScenario` | base/fs.go:96-146 | A root listing that returns `dir/` yields `.` and the directory `dir`, and no `..`. |
| `FsOps.Create` | base/fs.go:147-166 | An existing key gives `-EEXIST` with nothing changed. A failed upload gives `-EIO` with nothing changed. Otherwise exactly one empty object is added at the trimmed key, and nothing else changes. |
| `FsOps.CreateThenGetattr` | base/fs.go:147-166 | After a successful `Create`, `Getattr` reports a regular file of size 0. |
| `FsOps.Mkdir` | base/fs.go:167-186 | The same guard, `-EIO` on a failed upload, and single-key effect as `Create`, for the marker `name + "/"`. |
| `FsOps.MkdirThenGetattr` | base/fs.go:167-186 | After a successful `Mkdir` over a name with no object, `Getattr` finds the directory through its prefix probe. |
| `FsOps.Unlink` | base/fs.go:187-201 | Removes exactly the trimmed key. A removal failure gives `-EIO` and changes nothing. |
| `FsOps.Rmdir` | base/fs.go:202-228 | Always returns 0. It never touches the bucket or the staging area. The metadata store either stays as it was or loses exactly the directory's entry key. |
| `FsOps.RmdirAgreesWithRmdirAuto` | base/fs.go:206-221 | `Rmdir("/" + d)` trims the leading `/`, and `RmdirAuto(d + "/")` at meta/meta-store.go:74 trims the trailing one. From the same state and faults they leave the same metadata store. |
| `FsOps.Open` | base/fs.go:229-247 | A failed stat gives `-EIO`, and a missing object gives `-ENOENT` whatever the flags. An existing object opened with `O_WRONLY` or `O_RDWR` gives `-EACCES`. Anything else gives 0. |
| `FsOps.Read` | base/fs.go:248-274 | Offset 0 always gives `-EIO`, and so does a negative offset (the failed `Seek`). A positive offset, when the mount-point-trimmed key exists, returns the bytes at the offset, at most the buffer size, with the count as code. |
| `Staging.WriteAt` | base/fs.go:320 | A file write at a position takes bytes in the written range from the data and the rest from the old content, growing the file if needed. |
| `Staging.Splice` | base/fs.go:446-498 | The splice of `b` into `c` at `k` is `c[..m] + b + c[m..]` with `m = min(k, len(c))`. Its length is `len(c) + len(b)`. |
| `Staging.SpliceRemovable` | base/fs.go:463-479 | Cutting the inserted bytes out of a splice gives back the original content. |
| `Staging.InsertAtPosition` | base/fs.go:446-498 | Fails on a negative offset or a local file failure. Otherwise the content is `c[..k] + data + c[k..]`, or `c + data` past the end. |
| `Staging.Staged` | base/fs.go:300-308 | After the copy, the staging file starts with the object's bytes. Any longer earlier content survives beyond them, because the open does not truncate. |
| `Staging.Write` | base/fs.go:297-324 | The staging file is opened and becomes `CacheFile` before anything can fail. A failed fetch or missing untrimmed key gives `-EIO` and leaves the earlier staging content. Otherwise the code is `len(buff)`, even when the splice fails. The staged file is the object laid over the earlier content; a positive offset then splices `buff` into it (or leaves it as staged when the splice fails), and offset 0 writes `buff` just past the object. Only the staging file changes. |
| `Staging.WriteAtZeroLayout` | base/fs.go:308-322 | At offset 0 the staged file holds the object, then the written bytes at position `len(c)`, then any leftover earlier bytes. |
| `Staging.WriteFromEmptyAppends` | base/fs.go:319-322 | From an empty staging area, offset 0 stages `c + buff`. |
| `Staging.WriteFromEmptySplices` | base/fs.go:313-318 | From an empty staging area, a positive offset stages the splice of `buff` into `c`. |
| `Staging.Release` | base/fs.go:275-296 | Uploads the whole `CacheFile` content under the `/`-trimmed path, then deletes the file. A failed upload gives `-EIO` and keeps the file. A failed delete gives `-EIO` after the upload. |
| `Staging.WriteReleaseRoundTrip` | base/fs.go:275-324 | `Write(p, b, 0)` then `Release(p)` from an empty staging area stores `c + b` under the trimmed name and removes the staging file. |
| `Staging.ReleaseUploadsLastStaged` | base/fs.go:280-282 | After writing `p1`, releasing `p2` stores `p1`'s staged bytes under `p2`'s name. |
| `Staging.ReleaseFailureModes` | base/fs.go:282-293 | A failed upload leaves the store and the staging file. A failed delete still leaves the uploaded object. |
| `Rename.IsDirectory` | base/fs.go:404-419 | A name ending in `/` is a directory when that marker exists. Any other name is one when the one-item probe returned anything. |
| `Rename.IsDirectoryMeansChildren` | base/fs.go:413-418 | With an honest probe, a name is a directory exactly when some object lies under `name + "/"`. |
| `Rename.DirName` | base/fs.go:340-345 | The normalised directory name ends in `/`. A name that already does is kept, and any other name gets exactly one `/` appended. |
| `Rename.RebaseLeavesSource` | base/fs.go:376 | When the two directories are not prefixes of each other, no copy target lies under the source directory. |
| `Rename.RebaseInjective` | base/fs.go:376 | Distinct source keys have distinct copy targets. |
| `Rename.CopyLoop` | base/fs.go:364-385 | The copy loop returns 0 or `-EIO` and never removes a key. A failing copy of any listed object makes it return `-EIO`. |
| `Rename.RemoveLoop` | base/fs.go:387-401 | The removal loop only removes keys. On success it has removed exactly the listed keys. It fails only at a failing position, and a failing removal of any listed object makes it return `-EIO`. |
| `Rename.RenameDirectory` | base/fs.go:355-403 | A failing copy of any listed object gives `-EIO` before any removal, so every original key is still present. |
| `Rename.CopyLoopLaw` | base/fs.go:370-385 | With no failures, each listed object is copied to its rebased key with its content. The source directory is untouched, and every non-target key is unchanged. |
| `Rename.TargetsAreMoved` | base/fs.go:365-385 | With a faithful listing, the copy targets are exactly the rebased keys of the objects under the source directory. |
| `Rename.RemovedAreSources` | base/fs.go:388-401 | With a faithful listing, the removed keys are exactly the objects under the source directory. |
| `Rename.CopyPhase` | base/fs.go:364-385 | With a faithful listing, every object under the source directory is copied, and the rest of the bucket is unchanged apart from the targets. |
| `Rename.DirectoryRenameLaw` | base/fs.go:355-403 | With faithful listings, no failures and disjoint directories, every object reappears at `dst + s` with identical content. Nothing remains under the source, and all other keys are kept. |
| `Rename.RenameFile` | base/fs.go:420-445 | A missing source gives `-ENOENT` and a failed compose gives `-EIO`, both with no change. Otherwise the code is 0 whether or not the source delete succeeds, and the source is gone only if the delete succeeded. When source and destination differ, the destination holds the source's bytes; renaming a file onto itself deletes it. |
| `Rename.Rename` | base/fs.go:325-354 | Illegal destination characters give `-EINVAL` with no change. A directory source goes to the directory rename with both names ending in `/`. A file source onto an existing destination gives `-EEXIST` before the source-missing check. A missing source then gives `-ENOENT`. Otherwise the reply is `renameFile`'s code and store. Neither the staging area nor the metadata store changes. |
| `Rename.RenameOntoItselfLosesFile` | base/fs.go:349-353 | When the destination stat fails, the source stat succeeds, the store accepts the compose of `a` onto itself and the delete succeeds, `Rename("/a", "/a")` of an existing file returns 0 and leaves no key `a`: the deferred delete at base/fs.go:438-442 removes the only copy. |
| `KeyCodec.GetPathKey` | meta/meta-store.go:45-48 | The key starts with `OS/<tenant>/Bucket/` and ends with `/List/Name/<bucket>`. |
| `KeyCodec.PathKeyRoundTrip` | meta/meta-store.go:45-48 | Decoding a path key gives back its bucket. |
| `KeyCodec.PathKeyParseSound` | meta/meta-store.go:45-48 | A key the decoder accepts is the encoding of the bucket it decodes to. |
| `KeyCodec.PathKeyInjective` | meta/meta-store.go:46-47 | For one tenant, distinct buckets give distinct path keys. |
| `KeyCodec.GetObjKey` | meta/meta-store.go:50-53 | The key starts with `OS/<tenant>/` and ends with `/`. |
| `KeyCodec.ObjKeyRoundTrip` | meta/meta-store.go:50-53 | Decoding an entry key for a tenant and path-list id gives back its directory. |
| `KeyCodec.ObjKeyParseSound` | meta/meta-store.go:50-53 | A key the decoder accepts is the encoding of the directory it decodes to. |
| `KeyCodec.ObjKeyInjective` | meta/meta-store.go:51-52 | For one tenant and path-list id, distinct directories give distinct entry keys. |
| `KeyCodec.ObjKeyAmbiguousAcrossLists` | meta/meta-store.go:51-52 | The layout is not injective in the pair (path-list id, directory): directory `Data/LS/<o>` under id `<p>` has the same key as directory `<o>` under id `<p>/Data/LS`. |
| `MetaStore.Get` | meta/meta-store.go:78 | A transactional read sees the snapshot minus this transaction's own deletes. An absent key is `NotExist`. |
| `MetaStore.Delete` | meta/meta-store.go:83 | A delete only buffers the key in the transaction. |
| `MetaStore.Commit` | meta/meta-store.go:65 | Committing removes exactly the buffered keys and keeps all other values. |
| `MetaStore.ExecuteTxn` | meta/meta-store.go:55-69 | A `Begin` failure returns a wrapped error without running the body. A body error is rolled back and returned unwrapped. A commit failure returns a distinct wrapped error. The result is nil exactly when body and commit both succeed, and only then do the body's deletes reach the store. |
| `MetaStore.FailedTxnChangesNothing` | meta/meta-store.go:56-68 | Any failed transaction leaves the store unchanged. |
| `MetaStore.BeginFailureIgnoresBody` | meta/meta-store.go:57-60 | When `Begin` fails, the result is the same for every body. |
| `MetaStore.DeleteDirEntry` | meta/meta-store.go:76-86 | The body aborts on a failed path-key read. Otherwise it deletes the entry key built from the value read. |
| `MetaStore.DeleteEntry` | meta/meta-store.go:72-88 | If the path key cannot be read, nothing is deleted. The delete's and the commit's errors are returned. On success exactly the directory's entry key is gone. |
| `MetaStore.RmdirAuto` | meta/meta-store.go:72-88 | The trailing `/` is trimmed. The result is nil exactly with no faults and the path key present. On success only `GetObjKey(tenant, value, dir)` is removed, and on error nothing is. |
| `Reconciler.ScanFrom` | base/fs.go:508-519 | `RmdirAuto` is called exactly for the listed keys ending in `/`. Other keys and error items are ignored. The metadata store only loses keys. |
| `Reconciler.ScanTick` | base/fs.go:505-519 | One tick over a whole-bucket listing calls `RmdirAuto` for exactly the listed directory markers, and only deletes. |
| `Reconciler.CallsIgnoreOutcomes` | base/fs.go:513-517 | Which calls are made does not depend on their outcomes, so an error never stops the scan. |
| `Reconciler.EntryKeyIsNotPathKey` | meta/meta-store.go:46-53 | For a bucket name not ending in `/`, an entry key is never the path key. |
| `Reconciler.TickLaw` | base/fs.go:505-519 | With the path key present, a tick deletes only entry keys of listed markers. It deletes the entry of every marker whose own transaction had no fault, whatever happened to the others. |

## Left out

- Client construction for MinIO and TiKV, credentials and address splitting (base/fs.go:31-43, meta/meta-store.go:30-43) are not modelled. They are calls into foreign libraries.
- `NewMount`, the mount options and `host.Mount` (base/fs.go:44-60) are not modelled. They are FUSE host plumbing.
- main.go is not part of this model: flag parsing, configuration loading, the logger and its `autoRM` loop. That loop drains `global.EmptyDirs`, which nothing fills.
- The settings in global/global.go appear only as the `Config` parameter. That file holds no logic.
- Locking and concurrent dispatch are not modelled. Every callback is one atomic sequential step, as under the single mutex.
- The ticker and endless loop of `ScanEmptyDirAuto` are not modelled. Only one tick's body is.
- Logging, and the "not exist" filter that only decides what gets logged, are not modelled.
- Real file-system details are not modelled: temp-file naming, `CreateTemp`, and the Windows remove-before-rename in `insertAtPosition`. A failed splice leaves the staging file as it was.
- Ignored `OpenFile` errors in `Write` and `Release` are not modelled. The open is assumed to succeed.
- Staging.Write: a copy failure is modelled as happening before any byte is copied. A partial copy is not modelled.
- Staging.Write: the results of the ignored `CacheFile.Write` and `Close` are not modelled.
- Staging.Release requires that `CacheFile` was set and its file exists. Otherwise the source dereferences a nil value, which the model does not represent.
- FsOps.Read returns the clamped slice for an offset at or past the end. MinIO's `Seek` and `ReadAt` error cases beyond that are not modelled.
- MinIO streaming is not modelled. Neither are server-side listing order and common-prefix collapsing: listings are input sequences.
- The file handles returned by `Create` and `Open` are always 0 and are not modelled.
- Rename.DirectoryRenameLaw assumes neither directory is a prefix of the other. That is slightly stronger than "the destination is not under the source". It is needed because copying `a/b/b/y` to `a/b/y` before `a/b/y` itself has been copied would overwrite a source object.
- Rename.CopyLoop and Rename.RenameDirectory do not state what a failed directory rename leaves behind beyond "no key removed". The copies made before the failure stay, with no rollback.
- Reconciler.TickLaw assumes a bucket name that is non-empty and does not end in `/`. Otherwise an entry key could coincide with the path key.

=== FILE: adapter.dfy ===
/** State and vocabulary shared by the filesystem callbacks of base/fs.go. */
module Adapter {
  import opened Common
  import opened GoStrings
  import opened ObjStore
  import opened MetaStore

  // Error numbers as the FUSE binding defines them; callbacks return their negation.
  const ENOENT: int := 2
  const EIO: int := 5
  const EACCES: int := 13
  const EEXIST: int := 17
  const EINVAL: int := 22

  // File type bits and permission bits reported in attributes.
  const S_IFDIR: int := 0x4000
  const S_IFREG: int := 0x8000
  const DirMode: int := S_IFDIR + 0x1ED   // S_IFDIR | 0755
  const RegMode: int := S_IFREG + 0x1A4   // S_IFREG | 0644

  /** The settings the callbacks read: mount point, local staging directory, bucket, tenant. */
  datatype Config = Config(mountPoint: string, cacheDir: string, bucket: string, tenant: string)

  /** Everything a callback can change: the bucket, the metadata store, the files of the
      local staging directory (by name), and the name of the file `CacheFile` last opened. */
  datatype Fs = Fs(store: Store, meta: Kv, disk: map<string, Bytes>, cache: Option<string>)

  /** A callback's return code together with the state it leaves. */
  datatype Reply = Reply(code: int, fs: Fs)

  /** The object key of a filesystem path: the path without its leading `/`. */
  function ObjectName(path: string): (name: string)
    ensures HasPrefix(path, "/") ==> "/" + name == path
    ensures !HasPrefix(path, "/") ==> name == path
  {
    TrimPrefix(path, "/")
  }

  lemma ObjectNameOfRooted(name: string)
    ensures ObjectName("/" + name) == name
  {
    TrimPrefixConcat("/", name);
  }
}

=== FILE: attr.dfy ===
/** Attribute lookup and directory listing over flat keys (`Getattr`, `Readdir`). */
module Attr {
  import opened Common
  import opened GoStrings
  import opened ObjStore
  import opened Adapter

  /** The fields of `fuse.Stat_t` the adapter sets. */
  datatype Stat = Stat(mode: int, size: nat)

  const DirStat := Stat(DirMode, 0)

  datatype AttrReply = AttrReply(code: int, stat: Option<Stat>)

  /** `Getattr`. `statFail` says the exact-key stat call failed for a reason other than a
      missing key; `probe` is what the one-item listing of `name + "/"` delivered. The store
      is only read. */
  function Getattr(store: Store, path: string, statFail: bool, probe: seq<ListEntry>): (r: AttrReply)
    ensures r.code == 0 <==> r.stat.Some?
    ensures r.code == 0 || r.code == -ENOENT
    // the root and any name ending in `/` are directories, whatever the store holds
    ensures path == "/" || HasSuffix(ObjectName(path), "/") ==> r == AttrReply(0, Some(DirStat))
    // an exact-key object wins over any child, with its own size
    ensures path != "/" && !HasSuffix(ObjectName(path), "/") && !statFail && ObjectName(path) in store ==>
              r == AttrReply(0, Some(Stat(RegMode, |store[ObjectName(path)]|)))
    // a failed or missing exact key falls back on the probe: any item, an error item
    // included, means a directory
    ensures path != "/" && !HasSuffix(ObjectName(path), "/") && (statFail || ObjectName(path) !in store) ==>
              r == (if |probe| > 0 then AttrReply(0, Some(DirStat)) else AttrReply(-ENOENT, None))
  {
    if path == "/" then AttrReply(0, Some(DirStat))
    else
      var name := ObjectName(path);
      if HasSuffix(name, "/") then AttrReply(0, Some(DirStat))
      else if !statFail && name in store then AttrReply(0, Some(Stat(RegMode, |store[name]|)))
      else if |probe| > 0 then AttrReply(0, Some(DirStat))
      else AttrReply(-ENOENT, None)
  }

  /** A path names a directory: the root, a name ending in `/`, or a name with something
      under `name + "/"` and no object of its own. */
  ghost predicate DirectoryPath(store: Store, path: string) {
    path == "/" || HasSuffix(ObjectName(path), "/")
    || (ObjectName(path) !in store && AnyUnder(store, ObjectName(path) + "/"))
  }

  /** A path names a regular file: an object exists at exactly its name. */
  ghost predicate FilePath(store: Store, path: string) {
    path != "/" && !HasSuffix(ObjectName(path), "/") && ObjectName(path) in store
  }

  /** With healthy remote calls, `Getattr` classifies exactly as the flat-key rules say:
      directory, regular file of the object's size, or not found — in both directions. */
  lemma GetattrClassifies(store: Store, path: string, probe: seq<ListEntry>)
    requires Probe(store, ObjectName(path) + "/", probe)
    ensures Getattr(store, path, false, probe).stat == Some(DirStat) <==> DirectoryPath(store, path)
    ensures FilePath(store, path) <==>
              Getattr(store, path, false, probe).stat.Some? && Getattr(store, path, false, probe).stat.value.mode == RegMode
    ensures FilePath(store, path) ==>
              Getattr(store, path, false, probe).stat.value.size == |store[ObjectName(path)]|
    ensures Getattr(store, path, false, probe).code == -ENOENT <==>
              !DirectoryPath(store, path) && !FilePath(store, path)
  {
  }

  /** A directory entry as handed to `fill`; `.` and `..` carry no attributes. */
  datatype DirEntry = DirEntry(name: string, stat: Option<Stat>)

  /** The listing prefix of a directory path. */
  function ListPrefix(path: string): string {
    if path == "/" then "" else ObjectName(path) + "/"
  }

  /** The entries emitted before the listing: `.`, and `..` unless at the root. */
  function Dots(path: string): (ds: seq<DirEntry>)
    ensures |ds| >= 1 && ds[0] == DirEntry(".", None)
    ensures |ds| == 2 <==> path != "/"
    ensures |ds| <= 2 && (|ds| == 2 ==> ds[1] == DirEntry("..", None))
  {
    if path == "/" then [DirEntry(".", None)] else [DirEntry(".", None), DirEntry("..", None)]
  }

  /** The name a listed key gets: the prefix removed, and for a directory key its trailing `/`. */
  function RelName(prefix: string, key: string): string {
    var rel := TrimPrefix(key, prefix);
    if HasSuffix(key, "/") then TrimSuffix(rel, "/") else rel
  }

  /** The entry a listed object produces: directory mode for a key ending in `/`,
      otherwise regular-file mode with the listed size. */
  function EntryOf(prefix: string, e: ListEntry): DirEntry
    requires e.Obj?
  {
    if HasSuffix(e.key, "/") then DirEntry(RelName(prefix, e.key), Some(DirStat))
    else DirEntry(RelName(prefix, e.key), Some(Stat(RegMode, e.size)))
  }

  /** The names of the object items among the first `n`. */
  ghost function SeenNames(prefix: string, listing: seq<ListEntry>, n: nat): set<string>
    requires n <= |listing|
  {
    if n == 0 then {}
    else SeenNames(prefix, listing, n - 1) +
         (if listing[n - 1].Obj? then {RelName(prefix, listing[n - 1].key)} else {})
  }

  /** Listing item `i` is an object whose name no earlier object item already had
      (`KeptMeansFirst` spells this out item by item). */
  ghost predicate Kept(prefix: string, listing: seq<ListEntry>, i: int)
    requires 0 <= i < |listing|
  {
    listing[i].Obj? && RelName(prefix, listing[i].key) !in SeenNames(prefix, listing, i)
  }

  /** Reference listing: the entries of the kept items among the first `n`, in order. */
  ghost function FirstEntries(prefix: string, listing: seq<ListEntry>, n: nat): seq<DirEntry>
    requires n <= |listing|
  {
    if n == 0 then []
    else FirstEntries(prefix, listing, n - 1) +
         (if Kept(prefix, listing, n - 1) then [EntryOf(prefix, listing[n - 1])] else [])
  }

  lemma {:induction false} SeenNamesMeans(prefix: string, listing: seq<ListEntry>, n: nat, name: string)
    requires n <= |listing|
    ensures name in SeenNames(prefix, listing, n) <==>
              exists j :: 0 <= j < n && listing[j].Obj? && RelName(prefix, listing[j].key) == name
  {
    if n > 0 {
      SeenNamesMeans(prefix, listing, n - 1, name);
    }
  }

  /** An object item is kept exactly when no earlier object item has the same name. */
  lemma KeptMeansFirst(prefix: string, listing: seq<ListEntry>, i: nat)
    requires i < |listing|
    ensures Kept(prefix, listing, i) <==>
              listing[i].Obj? && forall j :: 0 <= j < i && listing[j].Obj? ==>
                RelName(prefix, listing[j].key) != RelName(prefix, listing[i].key)
  {
    if listing[i].Obj? {
      SeenNamesMeans(prefix, listing, i, RelName(prefix, listing[i].key));
    }
  }

  /** The per-key step of `Readdir`: whether the key is a directory key, and its name. */
  method NameOf(prefix: string, key: string) returns (isDir: bool, relativeName: string)
    ensures isDir <==> HasSuffix(key, "/")
    ensures relativeName == RelName(prefix, key)
  {
    isDir := HasSuffix(key, "/");
    relativeName := TrimPrefix(key, prefix);
    if isDir {
      relativeName := TrimSuffix(relativeName, "/");
    }
  }

  /** How the reference listing and the seen names grow by one item. */
  lemma ListingStep(prefix: string, listing: seq<ListEntry>, i: nat)
    requires i < |listing|
    ensures listing[i].ListErr? ==>
              FirstEntries(prefix, listing, i + 1) == FirstEntries(prefix, listing, i)
              && SeenNames(prefix, listing, i + 1) == SeenNames(prefix, listing, i)
    ensures listing[i].Obj? ==>
              SeenNames(prefix, listing, i + 1) == SeenNames(prefix, listing, i) + {RelName(prefix, listing[i].key)}
    ensures listing[i].Obj? && RelName(prefix, listing[i].key) in SeenNames(prefix, listing, i) ==>
              FirstEntries(prefix, listing, i + 1) == FirstEntries(prefix, listing, i)
    ensures listing[i].Obj? && RelName(prefix, listing[i].key) !in SeenNames(prefix, listing, i) ==>
              FirstEntries(prefix, listing, i + 1) ==
                FirstEntries(prefix, listing, i) +
                  [DirEntry(RelName(prefix, listing[i].key),
                            Some(if HasSuffix(listing[i].key, "/") then DirStat else Stat(RegMode, listing[i].size)))]
  {
  }

  /** `Readdir`: emits `.`, `..` unless at the root, then one entry per distinct name in
      listing order, skipping error items; always returns 0. */
  method Readdir(path: string, listing: seq<ListEntry>) returns (code: int, out: seq<DirEntry>)
    ensures code == 0
    ensures out == Dots(path) + FirstEntries(ListPrefix(path), listing, |listing|)
  {
    var prefix := ListPrefix(path);
    out := [DirEntry(".", None)];
    if path != "/" {
      out := out + [DirEntry("..", None)];
    }
    // the entries passed to `fill` after the dot entries, in call order
    var filled: seq<DirEntry> := [];
    var processed: set<string> := {};
    var i := 0;
    while i < |listing|
      invariant 0 <= i <= |listing|
      invariant filled == FirstEntries(prefix, listing, i)
      invariant processed == SeenNames(prefix, listing, i)
    {
      ListingStep(prefix, listing, i);
      match listing[i] {
        case ListErr =>
        case Obj(key, size) =>
          var isDir, relativeName := NameOf(prefix, key);
          if relativeName !in processed {
            var stat := if isDir then DirStat else Stat(RegMode, size);
            filled := filled + [DirEntry(relativeName, Some(stat))];
            processed := processed + {relativeName};
          }
      }
      i := i + 1;
    }
    out := out + filled;
    code := 0;
  }

  /** Every reference entry is the entry of a kept item before `n`. */
  lemma {:induction false} FirstEntriesFromKept(prefix: string, listing: seq<ListEntry>, n: nat)
    requires n <= |listing|
    ensures forall e :: e in FirstEntries(prefix, listing, n) ==>
              exists i :: 0 <= i < n && Kept(prefix, listing, i) && e == EntryOf(prefix, listing[i])
  {
    if n > 0 {
      FirstEntriesFromKept(prefix, listing, n - 1);
    }
  }

  /** Every kept item before `n` contributes its entry. */
  lemma {:induction false} KeptInFirstEntries(prefix: string, listing: seq<ListEntry>, n: nat)
    requires n <= |listing|
    ensures forall i :: 0 <= i < n && Kept(prefix, listing, i) ==>
              EntryOf(prefix, listing[i]) in FirstEntries(prefix, listing, n)
  {
    if n > 0 {
      KeptInFirstEntries(prefix, listing, n - 1);
      var prev := FirstEntries(prefix, listing, n - 1);
      var tail := if Kept(prefix, listing, n - 1) then [EntryOf(prefix, listing[n - 1])] else [];
      assert FirstEntries(prefix, listing, n) == prev + tail;
      forall i | 0 <= i < n && Kept(prefix, listing, i)
        ensures EntryOf(prefix, listing[i]) in prev + tail
      {
        if i == n - 1 {
          assert (prev + tail)[|prev|] == EntryOf(prefix, listing[i]);
        }
      }
    }
  }

  /** The names of the reference entries are names already seen. */
  lemma {:induction false} FirstEntriesNamesSeen(prefix: string, listing: seq<ListEntry>, n: nat)
    requires n <= |listing|
    ensures forall e :: e in FirstEntries(prefix, listing, n) ==> e.name in SeenNames(prefix, listing, n)
  {
    if n > 0 {
      FirstEntriesNamesSeen(prefix, listing, n - 1);
    }
  }

  /** No two entries of `es` share a name. */
  ghost predicate NamesDistinct(es: seq<DirEntry>) {
    forall a, b :: 0 <= a < b < |es| ==> es[a].name != es[b].name
  }

  /** Appending an entry under a fresh name keeps the names distinct. */
  lemma AppendFreshName(es: seq<DirEntry>, e: DirEntry)
    requires NamesDistinct(es)
    requires forall x :: x in es ==> x.name != e.name
    ensures NamesDistinct(es + [e])
  {
    var all := es + [e];
    forall a, b | 0 <= a < b < |all|
      ensures all[a].name != all[b].name
    {
      assert all[a] == es[a];
      if b == |es| {
        assert es[a] in es;
      } else {
        assert all[b] == es[b];
      }
    }
  }

  /** No name is emitted twice by the listing part. */
  lemma {:induction false} FirstEntriesDistinct(prefix: string, listing: seq<ListEntry>, n: nat)
    requires n <= |listing|
    ensures NamesDistinct(FirstEntries(prefix, listing, n))
  {
    if n > 0 {
      FirstEntriesDistinct(prefix, listing, n - 1);
      if Kept(prefix, listing, n - 1) {
        FirstEntriesNamesSeen(prefix, listing, n - 1);
        AppendFreshName(FirstEntries(prefix, listing, n - 1), EntryOf(prefix, listing[n - 1]));
      }
    }
  }

  /** Every listed object's name is emitted, and the entry emitted for it is that of
      its first occurrence (so that occurrence's key decides directory or file mode). */
  lemma FirstOccurrenceWins(prefix: string, listing: seq<ListEntry>, i: nat)
    requires i < |listing| && listing[i].Obj?
    ensures exists j :: 0 <= j <= i && Kept(prefix, listing, j)
              && RelName(prefix, listing[j].key) == RelName(prefix, listing[i].key)
              && EntryOf(prefix, listing[j]) in FirstEntries(prefix, listing, |listing|)
  {
    var n := RelName(prefix, listing[i].key);
    var j := FirstWithName(prefix, listing, i, n);
    KeptInFirstEntries(prefix, listing, |listing|);
  }

  /** The first object item at or before `i` named `n`, given that item `i` is one. */
  lemma {:induction false} FirstWithNameExists(prefix: string, listing: seq<ListEntry>, i: nat, n: string)
    requires i < |listing| && listing[i].Obj? && RelName(prefix, listing[i].key) == n
    ensures exists j :: 0 <= j <= i && Kept(prefix, listing, j) && RelName(prefix, listing[j].key) == n
    decreases i
  {
    if !Kept(prefix, listing, i) {
      SeenNamesMeans(prefix, listing, i, n);
      var j :| 0 <= j < i && listing[j].Obj? && RelName(prefix, listing[j].key) == n;
      FirstWithNameExists(prefix, listing, j, n);
    }
  }

  ghost function FirstWithName(prefix: string, listing: seq<ListEntry>, i: nat, n: string): (j: nat)
    requires i < |listing| && listing[i].Obj? && RelName(prefix, listing[i].key) == n
    ensures j <= i && Kept(prefix, listing, j) && RelName(prefix, listing[j].key) == n
  {
    FirstWithNameExists(prefix, listing, i, n);
    var j :| 0 <= j <= i && Kept(prefix, listing, j) && RelName(prefix, listing[j].key) == n;
    j
  }

  /** Two name-distinct runs with no name in common concatenate to a name-distinct run. */
  lemma ConcatDistinct(xs: seq<DirEntry>, ys: seq<DirEntry>)
    requires NamesDistinct(xs) && NamesDistinct(ys)
    requires forall x, y :: x in xs && y in ys ==> x.name != y.name
    ensures NamesDistinct(xs + ys)
  {
    var all := xs + ys;
    forall a, b | 0 <= a < b < |all|
      ensures all[a].name != all[b].name
    {
      if a >= |xs| {
        assert all[a] == ys[a - |xs|] && all[b] == ys[b - |xs|];
      } else if b >= |xs| {
        assert all[a] == xs[a] && all[b] == ys[b - |xs|];
        assert xs[a] in xs && ys[b - |xs|] in ys;
      } else {
        assert all[a] == xs[a] && all[b] == xs[b];
      }
    }
  }

  /** The whole reply is free of repeats when no listed name is `.` or `..`. */
  lemma ReaddirDistinct(path: string, listing: seq<ListEntry>)
    requires forall i :: 0 <= i < |listing| && listing[i].Obj? ==>
               RelName(ListPrefix(path), listing[i].key) != "." && RelName(ListPrefix(path), listing[i].key) != ".."
    ensures NamesDistinct(Dots(path) + FirstEntries(ListPrefix(path), listing, |listing|))
  {
    var prefix := ListPrefix(path);
    var fe := FirstEntries(prefix, listing, |listing|);
    FirstEntriesDistinct(prefix, listing, |listing|);
    FirstEntriesFromKept(prefix, listing, |listing|);
    forall y | y in fe
      ensures y.name != "." && y.name != ".."
    {
      var i :| 0 <= i < |listing| && Kept(prefix, listing, i) && y == EntryOf(prefix, listing[i]);
    }
    ConcatDistinct(Dots(path), fe);
  }

  /** A bucket holding `dir/` and `dir/file1`, listed from the root, shows `.` and a
      directory `dir` (the non-recursive listing collapses `dir/file1` into `dir/`). */
  lemma RootListingScenario()
    ensures Dots("/") + FirstEntries(ListPrefix("/"), [Obj("dir/", 0)], 1) ==
              [DirEntry(".", None), DirEntry("dir", Some(DirStat))]
  {
    assert HasSuffix("dir/", "/");
    assert TrimPrefix("dir/", "") == "dir/";
    assert TrimSuffix("dir/", "/") == "dir";
    assert Kept("", [Obj("dir/", 0)], 0);
  }
}

=== FILE: common.dfy ===
/** Small shared vocabulary: bytes and optional values. */
module Common {

  /** One byte of object or staging content. */
  newtype byte = b: int | 0 <= b < 256

  type Bytes = seq<byte>

  datatype Option<+T> = None | Some(value: T)
}

=== FILE: fsops.dfy ===
/** The single-object callbacks of base/fs.go: `Create`, `Mkdir`, `Unlink`, `Rmdir`,
    `Open` and `Read`. Each remote call's failure is an explicit flag. */
module FsOps {
  import opened Common
  import opened GoStrings
  import opened ObjStore
  import opened KeyCodec
  import opened MetaStore
  import opened Adapter
  import Attr

  /** `Create`: refuses an existing key, otherwise uploads an empty object there.
      `statFail` is a stat error other than a missing key, which the source does not tell
      apart from absence. The returned handle is always 0 and is not modelled. */
  function Create(fs: Fs, path: string, statFail: bool, putFail: bool): (r: Reply)
    ensures r.fs.meta == fs.meta && r.fs.disk == fs.disk && r.fs.cache == fs.cache
    ensures !statFail && ObjectName(path) in fs.store ==> r == Reply(-EEXIST, fs)
    ensures r.code == 0 <==> (statFail || ObjectName(path) !in fs.store) && !putFail
    ensures r.code != 0 ==> r.fs == fs
    ensures (statFail || ObjectName(path) !in fs.store) && putFail ==> r == Reply(-EIO, fs)
    ensures r.code == 0 ==> PutOnly(fs.store, r.fs.store, ObjectName(path), [])
  {
    var name := ObjectName(path);
    if !statFail && name in fs.store then Reply(-EEXIST, fs)
    else if putFail then Reply(-EIO, fs)
    else Reply(0, fs.(store := fs.store[name := []]))
  }

  /** `Mkdir`: refuses an existing marker, otherwise uploads an empty marker `name + "/"`. */
  function Mkdir(fs: Fs, path: string, statFail: bool, putFail: bool): (r: Reply)
    ensures r.fs.meta == fs.meta && r.fs.disk == fs.disk && r.fs.cache == fs.cache
    ensures !statFail && ObjectName(path) + "/" in fs.store ==> r == Reply(-EEXIST, fs)
    ensures r.code == 0 <==> (statFail || ObjectName(path) + "/" !in fs.store) && !putFail
    ensures r.code != 0 ==> r.fs == fs
    ensures (statFail || ObjectName(path) + "/" !in fs.store) && putFail ==> r == Reply(-EIO, fs)
    ensures r.code == 0 ==> PutOnly(fs.store, r.fs.store, ObjectName(path) + "/", [])
  {
    var dirName := ObjectName(path) + "/";
    if !statFail && dirName in fs.store then Reply(-EEXIST, fs)
    else if putFail then Reply(-EIO, fs)
    else Reply(0, fs.(store := fs.store[dirName := []]))
  }

  /** `Unlink`: removes exactly the object key; a removal error is reported as `-EIO`. */
  function Unlink(fs: Fs, path: string, removeFail: bool): (r: Reply)
    ensures r.fs.meta == fs.meta && r.fs.disk == fs.disk && r.fs.cache == fs.cache
    ensures removeFail ==> r == Reply(-EIO, fs)
    ensures !removeFail ==> r.code == 0 && RemovedOnly(fs.store, r.fs.store, ObjectName(path))
  {
    if removeFail then Reply(-EIO, fs)
    else Reply(0, fs.(store := fs.store - {ObjectName(path)}))
  }

  /** `Rmdir`: deletes the directory's metadata entry in a transaction and reports success
      whatever happened; the bucket, the marker object and the staging area are untouched. */
  function Rmdir(fs: Fs, cfg: Config, path: string, faults: TxnFaults): (r: Reply)
    ensures r.code == 0
    ensures r.fs.store == fs.store && r.fs.disk == fs.disk && r.fs.cache == fs.cache
    ensures forall k :: k in r.fs.meta ==> k in fs.meta && r.fs.meta[k] == fs.meta[k]
    ensures r.fs.meta != fs.meta ==>
              && GetPathKey(cfg.tenant, cfg.bucket) in fs.meta
              && forall k :: k in fs.meta && k !in r.fs.meta ==>
                   k == EntryKey(fs.meta, cfg.tenant, cfg.bucket, ObjectName(path))
  {
    var res := DeleteEntry(fs.meta, faults, cfg.tenant, cfg.bucket, ObjectName(path));
    Reply(0, fs.(meta := res.kv))
  }

  /** `Rmdir("/" + d)` and the reconciler's `RmdirAuto(d + "/")` target the same entry:
      from the same metadata store and faults they leave the same store. */
  lemma RmdirAgreesWithRmdirAuto(fs: Fs, cfg: Config, d: string, faults: TxnFaults)
    ensures Rmdir(fs, cfg, "/" + d, faults).fs.meta ==
              RmdirAuto(fs.meta, faults, cfg.tenant, cfg.bucket, d + "/").kv
  {
    ObjectNameOfRooted(d);
    TrimSuffixConcat(d, "/");
  }

  // Access-mode bits of the open flags.
  const O_WRONLY: bv32 := 1
  const O_RDWR: bv32 := 2

  /** `Open`: existence is checked before the flags; write access through open is refused.
      `statFail` is a stat error other than a missing key. */
  function Open(store: Store, path: string, flags: bv32, statFail: bool): (code: int)
    ensures statFail ==> code == -EIO
    ensures !statFail && ObjectName(path) !in store ==> code == -ENOENT
    ensures !statFail && ObjectName(path) in store ==>
              (code == -EACCES <==> flags & O_WRONLY != 0 || flags & O_RDWR != 0)
    ensures code == 0 <==>
              !statFail && ObjectName(path) in store && flags & (O_WRONLY | O_RDWR) == 0
  {
    var name := ObjectName(path);
    if statFail then -EIO
    else if name !in store then -ENOENT
    else if flags & O_WRONLY != 0 || flags & O_RDWR != 0 then -EACCES
    else 0
  }

  datatype ReadReply = ReadReply(code: int, data: Bytes)

  /** `Read` of up to `size` bytes at `ofst`. The key is the path with the MOUNT POINT
      trimmed, not `/`. An offset of 0 always fails, as written. `fail` is a transport
      failure of the fetch, seek or read. */
  function Read(store: Store, cfg: Config, path: string, size: nat, ofst: int, fail: bool): (r: ReadReply)
    ensures ofst == 0 ==> r.code == -EIO
    ensures r.code >= 0 <==>
              !fail && ofst > 0 && TrimPrefix(path, cfg.mountPoint) in store
    ensures r.code < 0 ==> r.code == -EIO && r.data == []
    ensures r.code >= 0 ==>
              var c := store[TrimPrefix(path, cfg.mountPoint)];
              && r.code == |r.data| <= size
              && (ofst + |r.data| <= |c| ==> r.data == c[ofst..ofst + |r.data|])
              && (ofst < |c| ==> |r.data| == if ofst + size <= |c| then size else |c| - ofst)
              && (ofst >= |c| ==> r.data == [])
  {
    var objPath := TrimPrefix(path, cfg.mountPoint);
    if fail || objPath !in store || ofst < 0 then ReadReply(-EIO, [])
    else if ofst == 0 then ReadReply(-EIO, [])
    else
      var c := store[objPath];
      var lo := if ofst < |c| then ofst else |c|;
      var hi := if ofst + size < |c| then ofst + size else |c|;
      ReadReply(hi - lo, c[lo..hi])
  }

  /** Creating a file and then asking for its attributes reports an empty regular file. */
  lemma CreateThenGetattr(fs: Fs, path: string, statFail: bool, probe: seq<ListEntry>)
    requires path != "/" && !HasSuffix(ObjectName(path), "/")
    requires Create(fs, path, statFail, false).code == 0
    ensures Attr.Getattr(Create(fs, path, statFail, false).fs.store, path, false, probe) ==
              Attr.AttrReply(0, Some(Attr.Stat(RegMode, 0)))
  {
  }

  /** Making a directory over a name that holds no object makes `Getattr` report a
      directory, via the prefix probe that now finds the marker. */
  lemma MkdirThenGetattr(fs: Fs, path: string, statFail: bool, probe: seq<ListEntry>)
    requires ObjectName(path) !in fs.store
    requires Mkdir(fs, path, statFail, false).code == 0
    requires Probe(Mkdir(fs, path, statFail, false).fs.store, ObjectName(path) + "/", probe)
    ensures Attr.Getattr(Mkdir(fs, path, statFail, false).fs.store, path, false, probe) ==
              Attr.AttrReply(0, Some(Attr.DirStat))
  {
    var st := Mkdir(fs, path, statFail, false).fs.store;
    var marker := ObjectName(path) + "/";
    PrefixOfConcat(marker, "");
    assert marker + "" == marker;
    assert marker in st && HasPrefix(marker, marker);
    assert AnyUnder(st, marker);
  }
}

=== FILE: gostrings.dfy ===
/** The handful of functions of Go's `strings` package that the adapter relies on,
    with Go's semantics (a trim removes its affix at most once, and only if present). */
module GoStrings {

  predicate HasPrefix(s: string, p: string) {
    |p| <= |s| && s[..|p|] == p
  }

  predicate HasSuffix(s: string, x: string) {
    |x| <= |s| && s[|s| - |x|..] == x
  }

  /** `strings.TrimPrefix`: `s` without its leading `p`, or `s` itself. */
  function TrimPrefix(s: string, p: string): (r: string)
    ensures HasPrefix(s, p) ==> p + r == s
    ensures !HasPrefix(s, p) ==> r == s
  {
    if HasPrefix(s, p) then s[|p|..] else s
  }

  /** `strings.TrimSuffix`: `s` without its trailing `x`, or `s` itself. */
  function TrimSuffix(s: string, x: string): (r: string)
    ensures HasSuffix(s, x) ==> r + x == s
    ensures !HasSuffix(s, x) ==> r == s
  {
    if HasSuffix(s, x) then s[..|s| - |x|] else s
  }

  /** `strings.ContainsAny`: some character of `s` is one of `chars`. */
  predicate ContainsAny(s: string, chars: set<char>) {
    exists i :: 0 <= i < |s| && s[i] in chars
  }

  lemma PrefixOfConcat(p: string, s: string)
    ensures HasPrefix(p + s, p)
  {
    assert (p + s)[..|p|] == p;
  }

  lemma SuffixOfConcat(s: string, x: string)
    ensures HasSuffix(s + x, x)
  {
    assert (s + x)[|s + x| - |x|..] == x;
  }

  /** Trimming a prefix that was just prepended gives back the original. */
  lemma TrimPrefixConcat(p: string, s: string)
    ensures TrimPrefix(p + s, p) == s
  {
    PrefixOfConcat(p, s);
    assert (p + s)[|p|..] == s;
  }

  /** Trimming a suffix that was just appended gives back the original. */
  lemma TrimSuffixConcat(s: string, x: string)
    ensures TrimSuffix(s + x, x) == s
  {
    SuffixOfConcat(s, x);
    assert (s + x)[..|s + x| - |x|] == s;
  }

  /** Two prefixes of one string are prefixes of one another. */
  lemma PrefixesComparable(s: string, p: string, q: string)
    requires HasPrefix(s, p) && HasPrefix(s, q)
    ensures HasPrefix(p, q) || HasPrefix(q, p)
  {
    if |q| <= |p| {
      assert p[..|q|] == s[..|q|];
    } else {
      assert q[..|p|] == s[..|p|];
    }
  }
}

=== FILE: keycodec.dfy ===
/** The metadata-store key layout (meta/meta-store.go). Keys are plain concatenations of
    segments joined by `/`; the decoders below are the partners that show the encodings
    lose nothing in the varying segment. */
module KeyCodec {
  import opened Common
  import opened GoStrings

  const OS: string := "OS"
  const SLASH: string := "/"
  const BUCKET: string := "Bucket"
  const LIST: string := "List"
  const NAME: string := "Name"
  const DATA: string := "Data"
  const LS: string := "LS"

  /** Key holding a bucket's path-list identifier. The third segment is the literal
      `Bucket`, not the bucket's name. */
  function GetPathKey(tenant: string, bucket: string): (key: string)
    ensures HasPrefix(key, "OS/" + tenant + "/Bucket/")
    ensures HasSuffix(key, "/List/Name/" + bucket)
  {
    var key := OS + SLASH + tenant + SLASH + BUCKET + SLASH + LIST + SLASH + NAME + SLASH + bucket;
    assert key == ("OS/" + tenant + "/Bucket/") + ("List/Name/" + bucket);
    assert key == ("OS/" + tenant + "/Bucket") + ("/List/Name/" + bucket);
    PrefixOfConcat("OS/" + tenant + "/Bucket/", "List/Name/" + bucket);
    SuffixOfConcat("OS/" + tenant + "/Bucket", "/List/Name/" + bucket);
    key
  }

  /** Key of one directory's entry under a path-list identifier; always ends in `/`. */
  function GetObjKey(tenant: string, pathList: string, obj: string): (key: string)
    ensures HasPrefix(key, "OS/" + tenant + "/")
    ensures HasSuffix(key, "/")
  {
    var key := OS + SLASH + tenant + SLASH + pathList + SLASH + DATA + SLASH + LS + SLASH + obj + SLASH;
    assert key == ("OS/" + tenant + "/") + (pathList + "/Data/LS/" + obj + "/");
    assert key == ("OS/" + tenant + "/" + pathList + "/Data/LS/" + obj) + "/";
    PrefixOfConcat("OS/" + tenant + "/", pathList + "/Data/LS/" + obj + "/");
    SuffixOfConcat("OS/" + tenant + "/" + pathList + "/Data/LS/" + obj, "/");
    key
  }

  /** Reads the bucket back out of a path key of `tenant`. */
  function ParsePathKey(tenant: string, key: string): Option<string> {
    var head := "OS/" + tenant + "/Bucket/List/Name/";
    if HasPrefix(key, head) then Some(key[|head|..]) else None
  }

  /** Reads the directory back out of an entry key of `tenant` and `pathList`. */
  function ParseObjKey(tenant: string, pathList: string, key: string): Option<string> {
    var head := "OS/" + tenant + "/" + pathList + "/Data/LS/";
    if HasPrefix(key, head) && |key| > |head| && key[|key| - 1] == '/'
    then Some(key[|head|..|key| - 1])
    else None
  }

  lemma PathKeyRoundTrip(tenant: string, bucket: string)
    ensures ParsePathKey(tenant, GetPathKey(tenant, bucket)) == Some(bucket)
  {
    var head := "OS/" + tenant + "/Bucket/List/Name/";
    PathKeyShape(tenant, bucket);
    PrefixOfConcat(head, bucket);
    assert (head + bucket)[|head|..] == bucket;
  }

  /** A key the decoder accepts is exactly the encoding of what it decoded. */
  lemma PathKeyParseSound(tenant: string, key: string)
    requires ParsePathKey(tenant, key).Some?
    ensures GetPathKey(tenant, ParsePathKey(tenant, key).value) == key
  {
    var head := "OS/" + tenant + "/Bucket/List/Name/";
    var b := key[|head|..];
    assert key == head + b;
    PathKeyShape(tenant, b);
  }

  /** A path key is the tenant's fixed head followed by the bucket. */
  lemma PathKeyShape(tenant: string, bucket: string)
    ensures GetPathKey(tenant, bucket) == ("OS/" + tenant + "/Bucket/List/Name/") + bucket
  {
  }

  /** For one tenant, distinct buckets have distinct path keys. */
  lemma PathKeyInjective(tenant: string, b1: string, b2: string)
    requires b1 != b2
    ensures GetPathKey(tenant, b1) != GetPathKey(tenant, b2)
  {
    PathKeyRoundTrip(tenant, b1);
    PathKeyRoundTrip(tenant, b2);
  }

  lemma ObjKeyRoundTrip(tenant: string, pathList: string, obj: string)
    ensures ParseObjKey(tenant, pathList, GetObjKey(tenant, pathList, obj)) == Some(obj)
  {
    var head := "OS/" + tenant + "/" + pathList + "/Data/LS/";
    var key := GetObjKey(tenant, pathList, obj);
    ObjKeyShape(tenant, pathList, obj);
    assert key == head + (obj + "/");
    PrefixOfConcat(head, obj + "/");
    assert key[|head|..|key| - 1] == obj;
  }

  lemma ObjKeyParseSound(tenant: string, pathList: string, key: string)
    requires ParseObjKey(tenant, pathList, key).Some?
    ensures GetObjKey(tenant, pathList, ParseObjKey(tenant, pathList, key).value) == key
  {
    var head := "OS/" + tenant + "/" + pathList + "/Data/LS/";
    var o := key[|head|..|key| - 1];
    assert key == head + o + "/";
    ObjKeyShape(tenant, pathList, o);
  }

  /** For one tenant and path-list identifier, distinct directories have distinct entry keys. */
  lemma ObjKeyInjective(tenant: string, pathList: string, o1: string, o2: string)
    requires o1 != o2
    ensures GetObjKey(tenant, pathList, o1) != GetObjKey(tenant, pathList, o2)
  {
    ObjKeyRoundTrip(tenant, pathList, o1);
    ObjKeyRoundTrip(tenant, pathList, o2);
  }

  /** The layout is not injective in the pair (path-list identifier, directory):
      a directory name starting with `Data/LS/` collides with a longer identifier. */
  lemma ObjKeyAmbiguousAcrossLists(tenant: string, pathList: string, obj: string)
    ensures GetObjKey(tenant, pathList, "Data/LS/" + obj) == GetObjKey(tenant, pathList + "/Data/LS", obj)
  {
    var tail := "/Data/LS/";
    ObjKeyShape(tenant, pathList, "Data/LS/" + obj);
    ObjKeyShape(tenant, pathList + "/Data/LS", obj);
    assert "Data/LS/" == "Data/LS" + "/";
    assert tail == "/Data/LS" + "/";
    calc {
      pathList + tail + ("Data/LS/" + obj) + "/";
      pathList + "/Data/LS" + "/" + "Data/LS/" + obj + "/";
      pathList + "/Data/LS" + tail + obj + "/";
    }
  }

  /** An entry key is the tenant head followed by a tail that does not mention the tenant. */
  lemma ObjKeyShape(tenant: string, pathList: string, obj: string)
    ensures GetObjKey(tenant, pathList, obj) == ("OS/" + tenant + "/") + (pathList + "/Data/LS/" + obj + "/")
  {
  }
}

=== FILE: metastore.dfy ===
/** The transactional metadata store (meta/meta-store.go): a key-value map, transactions
    that buffer deletes until commit, the `ExecuteTxn` wrapper and `RmdirAuto`. */
module MetaStore {
  import opened Common
  import opened GoStrings
  import opened KeyCodec

  /** The metadata store's contents. Keys and values are byte strings in the service;
      here both are strings, as the adapter converts them with `string(...)`. */
  type Kv = map<string, string>

  datatype Error =
    | NotExist(key: string)          // `Get` of a key that is absent or deleted in this transaction
    | Fault                          // any failure of the remote service
    | BeginFailed(cause: Error)      // wrapped by `ExecuteTxn` when `Begin` fails
    | CommitFailed(cause: Error)     // wrapped by `ExecuteTxn` when `Commit` fails

  /** Which calls of one transaction fail. */
  datatype TxnFaults = TxnFaults(begin: bool, get: bool, delete: bool, commit: bool)

  const NoFaults := TxnFaults(false, false, false, false)

  /** An open transaction: the snapshot it reads and the deletes buffered so far. */
  datatype Txn = Txn(snapshot: Kv, deletes: set<string>, faults: TxnFaults)

  datatype GetResult = Value(value: string) | GetFailed(err: Error)

  /** What a transaction body hands back: its error (if any) and the transaction. */
  datatype BodyResult = BodyResult(err: Option<Error>, txn: Txn)

  /** What `ExecuteTxn` returns: its error (if any) and the store afterwards. */
  datatype TxnResult = TxnResult(err: Option<Error>, kv: Kv)

  type Body = Txn -> BodyResult

  function Begin(kv: Kv, faults: TxnFaults): Txn {
    Txn(kv, {}, faults)
  }

  /** `txn.Get`: reads the snapshot, seeing this transaction's own deletes. */
  function Get(txn: Txn, key: string): (r: GetResult)
    ensures r.Value? <==> !txn.faults.get && key in txn.snapshot && key !in txn.deletes
    ensures r.Value? ==> r.value == txn.snapshot[key]
    ensures r.GetFailed? && !txn.faults.get ==> r.err == NotExist(key)
  {
    if txn.faults.get then GetFailed(Fault)
    else if key !in txn.snapshot || key in txn.deletes then GetFailed(NotExist(key))
    else Value(txn.snapshot[key])
  }

  /** `txn.Delete`: buffers the delete; the store is untouched until commit. */
  function Delete(txn: Txn, key: string): (r: BodyResult)
    ensures r.err.None? <==> !txn.faults.delete
    ensures r.err.None? ==> r.txn.deletes == txn.deletes + {key}
    ensures r.err.Some? ==> r.txn == txn
    ensures r.txn.snapshot == txn.snapshot
  {
    if txn.faults.delete then BodyResult(Some(Fault), txn)
    else BodyResult(None, txn.(deletes := txn.deletes + {key}))
  }

  /** `txn.Commit`: the buffered deletes take effect. */
  function Commit(kv: Kv, txn: Txn): (r: Kv)
    ensures forall k :: k in r <==> k in kv && k !in txn.deletes
    ensures forall k :: k in r ==> r[k] == kv[k]
  {
    kv - txn.deletes
  }

  /** `ExecuteTxn`: begin, run the body, roll back on its error, otherwise commit. */
  function ExecuteTxn(kv: Kv, faults: TxnFaults, body: Body): (r: TxnResult)
    // a failed Begin never runs the body and reports a wrapped error
    ensures faults.begin ==> r.err == Some(BeginFailed(Fault)) && r.kv == kv
    // a failing body is rolled back and its own error is returned unwrapped
    ensures !faults.begin && body(Begin(kv, faults)).err.Some? ==>
              r.err == body(Begin(kv, faults)).err && r.kv == kv
    // a failed Commit is reported as a wrapped error distinct from the body's
    ensures !faults.begin && body(Begin(kv, faults)).err.None? && faults.commit ==>
              r.err == Some(CommitFailed(Fault)) && r.kv == kv
    // success exactly when the body and the commit both succeed, and only then
    // do the body's deletes take effect
    ensures r.err.None? <==> !faults.begin && body(Begin(kv, faults)).err.None? && !faults.commit
    ensures r.err.None? ==> r.kv == Commit(kv, body(Begin(kv, faults)).txn)
  {
    if faults.begin then TxnResult(Some(BeginFailed(Fault)), kv)
    else
      var txn := Begin(kv, faults);
      var out := body(txn);
      if out.err.Some? then TxnResult(out.err, kv)
      else if faults.commit then TxnResult(Some(CommitFailed(Fault)), kv)
      else TxnResult(None, Commit(kv, out.txn))
  }

  /** A failed transaction leaves the store as it was. */
  lemma FailedTxnChangesNothing(kv: Kv, faults: TxnFaults, body: Body)
    ensures ExecuteTxn(kv, faults, body).err.Some? ==> ExecuteTxn(kv, faults, body).kv == kv
  {
  }

  /** When `Begin` fails the body is never consulted: any two bodies give the same result. */
  lemma BeginFailureIgnoresBody(kv: Kv, faults: TxnFaults, b1: Body, b2: Body)
    requires faults.begin
    ensures ExecuteTxn(kv, faults, b1) == ExecuteTxn(kv, faults, b2)
  {
  }

  /** The body shared by `Rmdir` and `RmdirAuto`: look up the bucket's path-list
      identifier, then delete the entry key of `dir` under it. */
  function DeleteDirEntry(tenant: string, bucket: string, dir: string, txn: Txn): (r: BodyResult)
    ensures r.txn.snapshot == txn.snapshot
    ensures Get(txn, GetPathKey(tenant, bucket)).GetFailed? ==>
              r == BodyResult(Some(Get(txn, GetPathKey(tenant, bucket)).err), txn)
    ensures Get(txn, GetPathKey(tenant, bucket)).Value? ==>
              r == Delete(txn, GetObjKey(tenant, Get(txn, GetPathKey(tenant, bucket)).value, dir))
  {
    match Get(txn, GetPathKey(tenant, bucket))
    case GetFailed(e) => BodyResult(Some(e), txn)
    case Value(num) => Delete(txn, GetObjKey(tenant, num, dir))
  }

  function DirEntryBody(tenant: string, bucket: string, dir: string): Body {
    txn => DeleteDirEntry(tenant, bucket, dir, txn)
  }

  /** The entry key `dir` maps to in `kv`, once the path-list identifier is known. */
  function EntryKey(kv: Kv, tenant: string, bucket: string, dir: string): string
    requires GetPathKey(tenant, bucket) in kv
  {
    GetObjKey(tenant, kv[GetPathKey(tenant, bucket)], dir)
  }

  /** Deletes the entry of one directory; `dir` is the whole transaction's target. */
  function DeleteEntry(kv: Kv, faults: TxnFaults, tenant: string, bucket: string, dir: string): (r: TxnResult)
    // if the path key cannot be read, nothing is deleted
    ensures faults.begin || faults.get || GetPathKey(tenant, bucket) !in kv ==>
              r.err.Some? && r.kv == kv
    // an absent path key is reported as not existing
    ensures !faults.begin && !faults.get && GetPathKey(tenant, bucket) !in kv ==>
              r.err == Some(NotExist(GetPathKey(tenant, bucket)))
    // the delete's and the commit's errors are returned, with nothing deleted
    ensures !faults.begin && !faults.get && GetPathKey(tenant, bucket) in kv && faults.delete ==>
              r.err == Some(Fault) && r.kv == kv
    ensures r.err.None? <==>
              !faults.begin && !faults.get && !faults.delete && !faults.commit && GetPathKey(tenant, bucket) in kv
    // on success exactly the directory's entry key is gone, and nothing else changed
    ensures r.err.None? ==>
              && EntryKey(kv, tenant, bucket, dir) !in r.kv
              && forall k :: k != EntryKey(kv, tenant, bucket, dir) ==>
                   (k in r.kv <==> k in kv) && (k in kv ==> r.kv[k] == kv[k])
  {
    ExecuteTxn(kv, faults, DirEntryBody(tenant, bucket, dir))
  }

  /** `RmdirAuto`: removes the trailing `/` of a marker key and deletes that directory's entry. */
  function RmdirAuto(kv: Kv, faults: TxnFaults, tenant: string, bucket: string, path: string): (r: TxnResult)
    ensures forall k :: k in r.kv ==> k in kv && r.kv[k] == kv[k]
    ensures r.err.Some? ==> r.kv == kv
    ensures r.err.None? <==>
              !faults.begin && !faults.get && !faults.delete && !faults.commit && GetPathKey(tenant, bucket) in kv
    ensures r.err.None? ==>
              && EntryKey(kv, tenant, bucket, TrimSuffix(path, "/")) !in r.kv
              && forall k :: k in kv && k !in r.kv ==> k == EntryKey(kv, tenant, bucket, TrimSuffix(path, "/"))
  {
    DeleteEntry(kv, faults, tenant, bucket, TrimSuffix(path, "/"))
  }
}

=== FILE: objstore.dfy ===
/** The object store as the adapter sees it: a flat map from keys to contents,
    and prefix listings that arrive as an already-taken snapshot. */
module ObjStore {
  import opened Common
  import opened GoStrings

  /** One bucket: object key to content; an object's size is its length. */
  type Store = map<string, Bytes>

  /** One item received from a listing channel: an object, or an item whose `Err` is set. */
  datatype ListEntry = Obj(key: string, size: nat) | ListErr

  /** Every item of `listing` is an object of `store` under `prefix`, with its true size. */
  ghost predicate SoundListing(store: Store, prefix: string, listing: seq<ListEntry>) {
    forall i :: 0 <= i < |listing| ==>
      && listing[i].Obj?
      && listing[i].key in store
      && HasPrefix(listing[i].key, prefix)
      && listing[i].size == |store[listing[i].key]|
  }

  /** Some object of `store` lies under `prefix`. */
  ghost predicate AnyUnder(store: Store, prefix: string) {
    exists k :: k in store && HasPrefix(k, prefix)
  }

  /** A recursive listing of `prefix`: sound, and it names every object under `prefix`. */
  ghost predicate Faithful(store: Store, prefix: string, listing: seq<ListEntry>) {
    && SoundListing(store, prefix, listing)
    && forall k :: k in store && HasPrefix(k, prefix) ==>
         exists i :: 0 <= i < |listing| && listing[i] == Obj(k, |store[k]|)
  }

  /** What a `MaxKeys: 1` listing of `prefix` returns when nothing goes wrong:
      at most one sound item, and one exactly when something lies under `prefix`. */
  ghost predicate Probe(store: Store, prefix: string, listing: seq<ListEntry>) {
    && |listing| <= 1
    && SoundListing(store, prefix, listing)
    && (|listing| == 1 <==> AnyUnder(store, prefix))
  }

  /** `after` is `before` with exactly `key` set to `content`; every other key is untouched. */
  ghost predicate PutOnly(before: Store, after: Store, key: string, content: Bytes) {
    && key in after && after[key] == content
    && forall k :: k != key ==> (k in after <==> k in before) && (k in before ==> after[k] == before[k])
  }

  /** `after` is `before` without `key`; every other key is untouched. */
  ghost predicate RemovedOnly(before: Store, after: Store, key: string) {
    && key !in after
    && forall k :: k != key ==> (k in after <==> k in before) && (k in before ==> after[k] == before[k])
  }
}

=== FILE: reconciler.dfy ===
/** One tick of the background reconciler (`ScanEmptyDirAuto` in base/fs.go): every
    directory marker in a recursive listing of the bucket has its metadata entry deleted
    through `RmdirAuto`; errors are logged and the scan goes on. */
module Reconciler {
  import opened GoStrings
  import opened ObjStore
  import opened KeyCodec
  import opened MetaStore

  /** The directories `RmdirAuto` was called with, in order, and the metadata store after. */
  datatype Tick = Tick(calls: seq<string>, kv: Kv)

  /** The faults of the `RmdirAuto` call made for listing position `i` (none if unlisted). */
  function FaultsAt(faults: seq<TxnFaults>, i: nat): TxnFaults {
    if i < |faults| then faults[i] else NoFaults
  }

  /** Listing position `j` is a directory marker object. */
  predicate IsMarker(listing: seq<ListEntry>, j: int)
    requires 0 <= j < |listing|
  {
    listing[j].Obj? && HasSuffix(listing[j].key, "/")
  }

  /** The marker keys listed from position `i` on. */
  function MarkersFrom(listing: seq<ListEntry>, i: nat): set<string> {
    set j | i <= j < |listing| && IsMarker(listing, j) :: listing[j].key
  }

  /** The tick's loop from listing position `i` on. */
  function ScanFrom(kv: Kv, listing: seq<ListEntry>, tenant: string, bucket: string,
                    faults: seq<TxnFaults>, i: nat): (r: Tick)
    requires i <= |listing|
    ensures forall k :: k in r.kv ==> k in kv && r.kv[k] == kv[k]
    ensures forall x :: x in r.calls <==> x in MarkersFrom(listing, i)
    decreases |listing| - i
  {
    if i == |listing| then Tick([], kv)
    else match listing[i]
      case ListErr => ScanFrom(kv, listing, tenant, bucket, faults, i + 1)
      case Obj(key, _) =>
        if HasSuffix(key, "/") then
          var res := RmdirAuto(kv, FaultsAt(faults, i), tenant, bucket, key);
          var rest := ScanFrom(res.kv, listing, tenant, bucket, faults, i + 1);
          Tick([key] + rest.calls, rest.kv)
        else ScanFrom(kv, listing, tenant, bucket, faults, i + 1)
  }

  /** One tick over a snapshot of the whole bucket. */
  function ScanTick(kv: Kv, listing: seq<ListEntry>, tenant: string, bucket: string,
                    faults: seq<TxnFaults>): (r: Tick)
    ensures forall k :: k in r.kv ==> k in kv && r.kv[k] == kv[k]
    ensures forall x :: x in r.calls <==> x in MarkersFrom(listing, 0)
  {
    ScanFrom(kv, listing, tenant, bucket, faults, 0)
  }

  /** Which calls are made does not depend on their outcomes: a failing `RmdirAuto`
      never stops the scan. */
  lemma {:induction false} CallsIgnoreOutcomes(kv1: Kv, kv2: Kv, listing: seq<ListEntry>, tenant: string,
                                               bucket: string, f1: seq<TxnFaults>, f2: seq<TxnFaults>, i: nat)
    requires i <= |listing|
    ensures ScanFrom(kv1, listing, tenant, bucket, f1, i).calls ==
              ScanFrom(kv2, listing, tenant, bucket, f2, i).calls
    decreases |listing| - i
  {
    if i < |listing| {
      match listing[i]
      case ListErr =>
        CallsIgnoreOutcomes(kv1, kv2, listing, tenant, bucket, f1, f2, i + 1);
      case Obj(key, _) =>
        if HasSuffix(key, "/") {
          CallsIgnoreOutcomes(RmdirAuto(kv1, FaultsAt(f1, i), tenant, bucket, key).kv,
                              RmdirAuto(kv2, FaultsAt(f2, i), tenant, bucket, key).kv,
                              listing, tenant, bucket, f1, f2, i + 1);
        } else {
          CallsIgnoreOutcomes(kv1, kv2, listing, tenant, bucket, f1, f2, i + 1);
        }
    }
  }

  /** A bucket name that is not empty and does not end in `/` (as bucket names never do). */
  predicate PlainBucket(bucket: string) {
    |bucket| > 0 && bucket[|bucket| - 1] != '/'
  }

  /** An entry key ends in `/` and the path key does not, so deleting entries never
      deletes the path key. */
  lemma EntryKeyIsNotPathKey(tenant: string, bucket: string, pathList: string, dir: string)
    requires PlainBucket(bucket)
    ensures GetObjKey(tenant, pathList, dir) != GetPathKey(tenant, bucket)
  {
    var pk := GetPathKey(tenant, bucket);
    assert pk[|pk| - 1] == bucket[|bucket| - 1];
  }

  /** The entry keys of the markers listed from position `i` on. */
  ghost function MarkerEntryKeys(kv: Kv, listing: seq<ListEntry>, tenant: string, bucket: string, i: nat): set<string>
    requires GetPathKey(tenant, bucket) in kv
  {
    set j | i <= j < |listing| && IsMarker(listing, j) ::
      EntryKey(kv, tenant, bucket, TrimSuffix(listing[j].key, "/"))
  }

  /** With the path key present, a tick deletes nothing but entries of listed markers,
      and deletes the entry of every marker whose own transaction had no fault, whatever
      happened to the others. */
  lemma {:induction false} TickLaw(kv: Kv, listing: seq<ListEntry>, tenant: string, bucket: string,
                                   faults: seq<TxnFaults>, i: nat)
    requires i <= |listing| && PlainBucket(bucket) && GetPathKey(tenant, bucket) in kv
    ensures var r := ScanFrom(kv, listing, tenant, bucket, faults, i);
            && GetPathKey(tenant, bucket) in r.kv
            && (forall k :: k in kv && k !in r.kv ==> k in MarkerEntryKeys(kv, listing, tenant, bucket, i))
            && (forall j :: i <= j < |listing| && IsMarker(listing, j) && FaultsAt(faults, j) == NoFaults ==>
                  EntryKey(kv, tenant, bucket, TrimSuffix(listing[j].key, "/")) !in r.kv)
    decreases |listing| - i
  {
    var pk := GetPathKey(tenant, bucket);
    if i < |listing| {
      var r := ScanFrom(kv, listing, tenant, bucket, faults, i);
      if IsMarker(listing, i) {
        var key := listing[i].key;
        var res := RmdirAuto(kv, FaultsAt(faults, i), tenant, bucket, key);
        EntryKeyIsNotPathKey(tenant, bucket, kv[pk], TrimSuffix(key, "/"));
        assert pk in res.kv && res.kv[pk] == kv[pk];
        TickLaw(res.kv, listing, tenant, bucket, faults, i + 1);
        assert r.kv == ScanFrom(res.kv, listing, tenant, bucket, faults, i + 1).kv;
        assert MarkerEntryKeys(res.kv, listing, tenant, bucket, i + 1) ==
               MarkerEntryKeys(kv, listing, tenant, bucket, i + 1);
      } else {
        TickLaw(kv, listing, tenant, bucket, faults, i + 1);
        assert r == ScanFrom(kv, listing, tenant, bucket, faults, i + 1);
      }
    }
  }
}

=== FILE: rename.dfy ===
/** Rename emulation of base/fs.go: the illegal-character guard, the file-or-directory
    decision, copy-then-delete for directories and compose-then-delete for files.
    Nothing is rolled back on a partial failure. */
module Rename {
  import opened GoStrings
  import opened ObjStore
  import opened Adapter

  /** Characters a destination name may not contain. */
  const IllegalChars: set<char> := {'\\', ':', '*', '?', '"', '<', '>', '|'}

  /** The answers of the remote calls one `Rename` can make. */
  datatype RenameCalls = RenameCalls(
    dirProbe: seq<ListEntry>,        // one-item listing of `src + "/"` made by `isDirectory`
    dstStatFail: bool,               // destination stat failed other than by absence
    srcStatFail: bool,               // source stat in `renameFile` failed other than by absence
    composeFail: bool,               // server-side compose of the file
    removeFail: bool,                // removal of the renamed file's source
    copyListing: seq<ListEntry>,     // recursive listing taken before the copies
    copyFails: set<nat>,             // positions in `copyListing` whose copy fails
    removeListing: seq<ListEntry>,   // recursive listing taken before the removals
    removeFails: set<nat>)           // positions in `removeListing` whose removal fails

  datatype StoreReply = StoreReply(code: int, store: Store)

  /** `isDirectory`: a name ending in `/` is a directory if that exact marker exists;
      any other name if the one-item listing of `name + "/"` delivered anything. */
  function IsDirectory(store: Store, path: string, statFail: bool, probe: seq<ListEntry>): (b: bool)
    ensures HasSuffix(path, "/") ==> (b <==> !statFail && path in store)
    ensures !HasSuffix(path, "/") ==> (b <==> |probe| > 0)
  {
    if HasSuffix(path, "/") then !statFail && path in store
    else |probe| > 0
  }

  /** With a healthy probe, a name without trailing `/` is a directory exactly when some
      object lies under `name + "/"`. */
  lemma IsDirectoryMeansChildren(store: Store, path: string, probe: seq<ListEntry>)
    requires !HasSuffix(path, "/") && Probe(store, path + "/", probe)
    ensures IsDirectory(store, path, false, probe) <==> AnyUnder(store, path + "/")
  {
  }

  /** A directory name as `Rename` normalises it: with a trailing `/`. */
  function DirName(name: string): (d: string)
    ensures HasSuffix(d, "/")
    ensures HasSuffix(name, "/") ==> d == name
    ensures !HasSuffix(name, "/") ==> d == name + "/"
  {
    if HasSuffix(name, "/") then name
    else
      SuffixOfConcat(name, "/");
      name + "/"
  }

  /** The destination key of a source key: its part below `srcDir` placed below `dstDir`. */
  function Rebase(key: string, srcDir: string, dstDir: string): string {
    dstDir + TrimPrefix(key, srcDir)
  }

  /** Neither directory prefix lies under the other. */
  predicate Disjoint(srcDir: string, dstDir: string) {
    !HasPrefix(dstDir, srcDir) && !HasPrefix(srcDir, dstDir)
  }

  /** A copy target never lies under the source directory. */
  lemma RebaseLeavesSource(key: string, srcDir: string, dstDir: string)
    requires Disjoint(srcDir, dstDir)
    ensures !HasPrefix(Rebase(key, srcDir, dstDir), srcDir)
  {
    var t := Rebase(key, srcDir, dstDir);
    PrefixOfConcat(dstDir, TrimPrefix(key, srcDir));
    if HasPrefix(t, srcDir) {
      PrefixesComparable(t, srcDir, dstDir);
    }
  }

  /** Distinct source keys have distinct copy targets. */
  lemma RebaseInjective(k1: string, k2: string, srcDir: string, dstDir: string)
    requires HasPrefix(k1, srcDir) && HasPrefix(k2, srcDir)
    requires Rebase(k1, srcDir, dstDir) == Rebase(k2, srcDir, dstDir)
    ensures k1 == k2
  {
    var t1 := TrimPrefix(k1, srcDir);
    var t2 := TrimPrefix(k2, srcDir);
    assert (dstDir + t1)[|dstDir|..] == t1;
    assert (dstDir + t2)[|dstDir|..] == t2;
  }

  /** The copy loop of `renameDirectory`, from listing position `i` on. Error items are
      skipped; the first failing copy (or a listed key that no longer exists) stops it with
      `-EIO`, leaving the copies made so far. */
  function CopyLoop(store: Store, listing: seq<ListEntry>, srcDir: string, dstDir: string,
                    fails: set<nat>, i: nat): (r: StoreReply)
    requires i <= |listing|
    ensures r.code == 0 || r.code == -EIO
    ensures forall k :: k in store ==> k in r.store
    // a failing copy of any listed object from `i` on makes the loop fail
    ensures (exists j :: i <= j < |listing| && listing[j].Obj? && j in fails) ==> r.code == -EIO
    decreases |listing| - i
  {
    if i == |listing| then StoreReply(0, store)
    else match listing[i]
      case ListErr => CopyLoop(store, listing, srcDir, dstDir, fails, i + 1)
      case Obj(key, _) =>
        if i in fails || key !in store then StoreReply(-EIO, store)
        else
          var target := Rebase(key, srcDir, dstDir);
          CopyLoop(store[target := store[key]], listing, srcDir, dstDir, fails, i + 1)
  }

  /** The keys an object listing names from position `i` on. */
  function KeysFrom(listing: seq<ListEntry>, i: nat): set<string> {
    set j | i <= j < |listing| && listing[j].Obj? :: listing[j].key
  }

  /** The removal loop of `renameDirectory`, from listing position `i` on. Removing an
      absent key succeeds; the first failing removal stops it with `-EIO`. */
  function RemoveLoop(store: Store, listing: seq<ListEntry>, fails: set<nat>, i: nat): (r: StoreReply)
    requires i <= |listing|
    ensures r.code == 0 || r.code == -EIO
    ensures forall k :: k in r.store ==> k in store && r.store[k] == store[k]
    ensures r.code == 0 ==> forall k :: k in r.store <==> k in store && k !in KeysFrom(listing, i)
    ensures r.code != 0 ==> exists j :: i <= j < |listing| && j in fails
    // and conversely, a failing removal of any listed object from `i` on makes it fail
    ensures (exists j :: i <= j < |listing| && listing[j].Obj? && j in fails) ==> r.code == -EIO
    decreases |listing| - i
  {
    if i == |listing| then StoreReply(0, store)
    else match listing[i]
      case ListErr => RemoveLoop(store, listing, fails, i + 1)
      case Obj(key, _) =>
        if i in fails then StoreReply(-EIO, store)
        else RemoveLoop(store - {key}, listing, fails, i + 1)
  }

  /** `renameDirectory`: copy every listed object to its rebased key, then remove every
      object of the second listing. A copy failure stops before any removal. */
  function RenameDirectory(store: Store, srcDir: string, dstDir: string, calls: RenameCalls): (r: StoreReply)
    ensures r.code == 0 || r.code == -EIO
    ensures CopyLoop(store, calls.copyListing, DirName(srcDir), DirName(dstDir), calls.copyFails, 0).code != 0 ==>
              r.code == -EIO && forall k :: k in store ==> k in r.store
    // a failing copy of any listed object fails the rename before anything is removed
    ensures (exists j :: 0 <= j < |calls.copyListing| && calls.copyListing[j].Obj? && j in calls.copyFails) ==>
              r.code == -EIO && forall k :: k in store ==> k in r.store
  {
    var s := DirName(srcDir);
    var d := DirName(dstDir);
    var copied := CopyLoop(store, calls.copyListing, s, d, calls.copyFails, 0);
    if copied.code != 0 then copied
    else RemoveLoop(copied.store, calls.removeListing, calls.removeFails, 0)
  }

  /** Copy targets of the listed objects from position `i` on. */
  ghost function Targets(listing: seq<ListEntry>, srcDir: string, dstDir: string, i: nat): set<string> {
    set j | i <= j < |listing| && listing[j].Obj? :: Rebase(listing[j].key, srcDir, dstDir)
  }

  /** Values agree on key `k` (both absent, or both present and equal). */
  ghost predicate SameAt(a: Store, b: Store, k: string) {
    (k in a <==> k in b) && (k in a ==> a[k] == b[k])
  }

  /** With no failures, a listing of existing objects under `srcDir` and disjoint directories,
      the copy loop succeeds, copies each listed object to its target, leaves the source
      directory alone, and changes no key that is not a target. */
  lemma {:induction false} CopyLoopLaw(store: Store, listing: seq<ListEntry>, srcDir: string, dstDir: string, i: nat)
    requires i <= |listing| && Disjoint(srcDir, dstDir)
    requires forall j :: i <= j < |listing| ==>
               listing[j].Obj? && listing[j].key in store && HasPrefix(listing[j].key, srcDir)
    ensures var r := CopyLoop(store, listing, srcDir, dstDir, {}, i);
            && r.code == 0
            && (forall k :: HasPrefix(k, srcDir) ==> SameAt(r.store, store, k))
            && (forall j :: i <= j < |listing| ==>
                  Rebase(listing[j].key, srcDir, dstDir) in r.store
                  && r.store[Rebase(listing[j].key, srcDir, dstDir)] == store[listing[j].key])
            && (forall k :: k !in Targets(listing, srcDir, dstDir, i) ==> SameAt(r.store, store, k))
    decreases |listing| - i
  {
    if i < |listing| {
      var key := listing[i].key;
      var target := Rebase(key, srcDir, dstDir);
      var next := store[target := store[key]];
      RebaseLeavesSource(key, srcDir, dstDir);
      CopyLoopLaw(next, listing, srcDir, dstDir, i + 1);
      var r := CopyLoop(next, listing, srcDir, dstDir, {}, i + 1);
      assert CopyLoop(store, listing, srcDir, dstDir, {}, i) == r;
      forall k | HasPrefix(k, srcDir)
        ensures SameAt(r.store, store, k)
      {
        assert SameAt(r.store, next, k);
      }
      forall j | i <= j < |listing|
        ensures Rebase(listing[j].key, srcDir, dstDir) in r.store
        ensures r.store[Rebase(listing[j].key, srcDir, dstDir)] == store[listing[j].key]
      {
        if j == i {
          if target in Targets(listing, srcDir, dstDir, i + 1) {
            var j' :| i + 1 <= j' < |listing| && listing[j'].Obj? && Rebase(listing[j'].key, srcDir, dstDir) == target;
            RebaseInjective(listing[j'].key, key, srcDir, dstDir);
          } else {
            assert SameAt(r.store, next, target);
          }
        } else {
          assert SameAt(next, store, listing[j].key);
        }
      }
      forall k | k !in Targets(listing, srcDir, dstDir, i)
        ensures SameAt(r.store, store, k)
      {
        assert k != target;
        assert k !in Targets(listing, srcDir, dstDir, i + 1);
      }
    }
  }

  /** The objects under `srcDir` and the keys they are moved to. */
  ghost function SourceKeys(store: Store, srcDir: string): set<string> {
    set k | k in store && HasPrefix(k, srcDir)
  }

  ghost function MovedKeys(store: Store, srcDir: string, dstDir: string): set<string> {
    set k | k in store && HasPrefix(k, srcDir) :: Rebase(k, srcDir, dstDir)
  }

  /** With a faithful listing, the copy targets are exactly the moved keys. */
  lemma TargetsAreMoved(store: Store, listing: seq<ListEntry>, srcDir: string, dstDir: string)
    requires Faithful(store, srcDir, listing)
    ensures Targets(listing, srcDir, dstDir, 0) == MovedKeys(store, srcDir, dstDir)
  {
    forall t | t in MovedKeys(store, srcDir, dstDir)
      ensures t in Targets(listing, srcDir, dstDir, 0)
    {
      var k :| k in store && HasPrefix(k, srcDir) && t == Rebase(k, srcDir, dstDir);
      var j :| 0 <= j < |listing| && listing[j] == Obj(k, |store[k]|);
    }
  }

  /** With a faithful listing, the removed keys are exactly the objects under `srcDir`. */
  lemma RemovedAreSources(store: Store, listing: seq<ListEntry>, srcDir: string)
    requires Faithful(store, srcDir, listing)
    ensures KeysFrom(listing, 0) == SourceKeys(store, srcDir)
  {
    forall k | k in SourceKeys(store, srcDir) ensures k in KeysFrom(listing, 0) {
      var j :| 0 <= j < |listing| && listing[j] == Obj(k, |store[k]|);
    }
  }

  /** The copy phase with a faithful listing: every object under `srcDir` is copied to its
      rebased key, the source directory is untouched, and keys that are not targets keep
      their objects. */
  lemma CopyPhase(store: Store, listing: seq<ListEntry>, srcDir: string, dstDir: string)
    requires Disjoint(srcDir, dstDir) && Faithful(store, srcDir, listing)
    ensures var c := CopyLoop(store, listing, srcDir, dstDir, {}, 0);
            && c.code == 0
            && (forall k :: k in store && HasPrefix(k, srcDir) ==>
                  Rebase(k, srcDir, dstDir) in c.store && c.store[Rebase(k, srcDir, dstDir)] == store[k])
            && (forall k :: HasPrefix(k, srcDir) ==> SameAt(c.store, store, k))
            && (forall k :: k !in MovedKeys(store, srcDir, dstDir) ==> SameAt(c.store, store, k))
  {
    CopyLoopLaw(store, listing, srcDir, dstDir, 0);
    TargetsAreMoved(store, listing, srcDir, dstDir);
    var c := CopyLoop(store, listing, srcDir, dstDir, {}, 0);
    forall k | k in store && HasPrefix(k, srcDir)
      ensures Rebase(k, srcDir, dstDir) in c.store && c.store[Rebase(k, srcDir, dstDir)] == store[k]
    {
      var j :| 0 <= j < |listing| && listing[j] == Obj(k, |store[k]|);
    }
  }

  /** Directory rename law: with faithful listings, no failures and disjoint directories,
      every object under `srcDir` reappears at its rebased key with identical content,
      nothing remains under `srcDir`, and every other key keeps its object. */
  lemma DirectoryRenameLaw(store: Store, srcDir: string, dstDir: string, calls: RenameCalls)
    requires HasSuffix(srcDir, "/") && HasSuffix(dstDir, "/") && Disjoint(srcDir, dstDir)
    requires Faithful(store, srcDir, calls.copyListing) && Faithful(store, srcDir, calls.removeListing)
    requires calls.copyFails == {} && calls.removeFails == {}
    ensures RenameDirectory(store, srcDir, dstDir, calls).code == 0
    ensures forall k :: k in store && HasPrefix(k, srcDir) ==>
              Rebase(k, srcDir, dstDir) in RenameDirectory(store, srcDir, dstDir, calls).store
              && RenameDirectory(store, srcDir, dstDir, calls).store[Rebase(k, srcDir, dstDir)] == store[k]
    ensures forall k :: k in RenameDirectory(store, srcDir, dstDir, calls).store ==> !HasPrefix(k, srcDir)
    ensures forall k :: !HasPrefix(k, srcDir) && k !in MovedKeys(store, srcDir, dstDir) ==>
              SameAt(RenameDirectory(store, srcDir, dstDir, calls).store, store, k)
  {
    var l1 := calls.copyListing;
    var l2 := calls.removeListing;
    CopyPhase(store, l1, srcDir, dstDir);
    RemovedAreSources(store, l2, srcDir);
    var c := CopyLoop(store, l1, srcDir, dstDir, {}, 0);
    var r := RemoveLoop(c.store, l2, {}, 0);
    assert RenameDirectory(store, srcDir, dstDir, calls) == r;
    forall k | k in store && HasPrefix(k, srcDir)
      ensures Rebase(k, srcDir, dstDir) in r.store && r.store[Rebase(k, srcDir, dstDir)] == store[k]
    {
      RebaseLeavesSource(k, srcDir, dstDir);
      assert Rebase(k, srcDir, dstDir) !in SourceKeys(store, srcDir);
    }
    forall k | !HasPrefix(k, srcDir) && k !in MovedKeys(store, srcDir, dstDir)
      ensures SameAt(r.store, store, k)
    {
      assert k !in SourceKeys(store, srcDir);
    }
  }

  /** `renameFile`: a missing source (or a failed stat) gives `-ENOENT`; a failed compose
      gives `-EIO`; otherwise the destination holds the source's content and the call
      reports 0, whether or not the deferred removal of the source succeeds. */
  function RenameFile(store: Store, src: string, dst: string, srcStatFail: bool,
                      composeFail: bool, removeFail: bool): (r: StoreReply)
    ensures srcStatFail || src !in store ==> r == StoreReply(-ENOENT, store)
    ensures !srcStatFail && src in store && composeFail ==> r == StoreReply(-EIO, store)
    ensures r.code == 0 <==> !srcStatFail && src in store && !composeFail
    ensures r.code == 0 && removeFail ==> PutOnly(store, r.store, dst, store[src])
    ensures r.code == 0 && !removeFail ==>
              && src !in r.store
              && (src != dst ==> dst in r.store && r.store[dst] == store[src])
              && forall k :: k != src && k != dst ==> SameAt(r.store, store, k)
  {
    if srcStatFail || src !in store then StoreReply(-ENOENT, store)
    else if composeFail then StoreReply(-EIO, store)
    else
      var composed := store[dst := store[src]];
      if removeFail then StoreReply(0, composed)
      else StoreReply(0, composed - {src})
  }

  /** Whether `Rename` treats its source as a directory. */
  function SourceIsDir(store: Store, src: string, calls: RenameCalls): bool {
    HasSuffix(src, "/") || IsDirectory(store, src, false, calls.dirProbe)
  }

  /** `Rename` takes the file path: a legal destination and a source that is not a directory. */
  function FileCase(fs: Fs, oldpath: string, newpath: string, calls: RenameCalls): bool {
    !ContainsAny(ObjectName(newpath), IllegalChars) && !SourceIsDir(fs.store, ObjectName(oldpath), calls)
  }

  /** The destination stat found an object. */
  function DstFound(fs: Fs, newpath: string, calls: RenameCalls): bool {
    !calls.dstStatFail && ObjectName(newpath) in fs.store
  }

  /** `Rename`. Guards in source order: illegal destination characters, then the
      directory decision, then (for a file) an existing destination before a missing source. */
  function Rename(fs: Fs, oldpath: string, newpath: string, calls: RenameCalls): (r: Reply)
    ensures r.fs.meta == fs.meta && r.fs.disk == fs.disk && r.fs.cache == fs.cache
    ensures ContainsAny(ObjectName(newpath), IllegalChars) ==> r == Reply(-EINVAL, fs)
    ensures !ContainsAny(ObjectName(newpath), IllegalChars) && SourceIsDir(fs.store, ObjectName(oldpath), calls) ==>
              r == Reply(RenameDirectory(fs.store, DirName(ObjectName(oldpath)), DirName(ObjectName(newpath)), calls).code,
                         fs.(store := RenameDirectory(fs.store, DirName(ObjectName(oldpath)), DirName(ObjectName(newpath)), calls).store))
    // a file rename onto an existing destination is refused, even when the source is missing
    ensures FileCase(fs, oldpath, newpath, calls) && DstFound(fs, newpath, calls) ==> r == Reply(-EEXIST, fs)
    ensures (FileCase(fs, oldpath, newpath, calls) && !DstFound(fs, newpath, calls) &&
             (calls.srcStatFail || ObjectName(oldpath) !in fs.store)) ==> r == Reply(-ENOENT, fs)
    ensures FileCase(fs, oldpath, newpath, calls) && !DstFound(fs, newpath, calls) ==>
              var moved := RenameFile(fs.store, ObjectName(oldpath), ObjectName(newpath),
                                      calls.srcStatFail, calls.composeFail, calls.removeFail);
              r == Reply(moved.code, fs.(store := moved.store))
  {
    var srcName := ObjectName(oldpath);
    var dstName := ObjectName(newpath);
    if ContainsAny(dstName, IllegalChars) then Reply(-EINVAL, fs)
    else if SourceIsDir(fs.store, srcName, calls) then
      var moved := RenameDirectory(fs.store, DirName(srcName), DirName(dstName), calls);
      Reply(moved.code, fs.(store := moved.store))
    else if DstFound(fs, newpath, calls) then Reply(-EEXIST, fs)
    else
      var moved := RenameFile(fs.store, srcName, dstName, calls.srcStatFail, calls.composeFail, calls.removeFail);
      Reply(moved.code, fs.(store := moved.store))
  }

  /** Renaming a file onto itself loses it: when the destination stat fails, the guard
      lets the call through, the compose rewrites the object in place, and the deferred
      delete of the source then removes the only copy while the code is 0. */
  lemma RenameOntoItselfLosesFile(fs: Fs, calls: RenameCalls)
    requires "a" in fs.store && calls.dirProbe == []
    requires calls.dstStatFail && !calls.srcStatFail && !calls.composeFail && !calls.removeFail
    ensures Rename(fs, "/a", "/a", calls).code == 0
    ensures "a" !in Rename(fs, "/a", "/a", calls).fs.store
  {
    assert ObjectName("/a") == "a";
    assert !HasSuffix("a", "/");
    assert !ContainsAny("a", IllegalChars);
  }
}

=== FILE: staging.dfy ===
/** The write-staging pipeline of base/fs.go: `Write` downloads the object into the local
    staging file and then overwrites or splices the written bytes into it; `Release`
    uploads the staging file as the whole object and deletes it. */
module Staging {
  import opened Common
  import opened ObjStore
  import opened Adapter

  /** Writing `b` into a file holding `x` at position `pos`, as a file write does:
      bytes in `[pos, pos + |b|)` come from `b`, the rest from `x`, and the file grows
      if the write runs past its end. */
  function WriteAt(x: Bytes, pos: nat, b: Bytes): (r: Bytes)
    requires pos <= |x|
    ensures |r| == if pos + |b| > |x| then pos + |b| else |x|
    ensures forall i :: 0 <= i < |r| ==> r[i] == if pos <= i < pos + |b| then b[i - pos] else x[i]
  {
    x[..pos] + b + (if pos + |b| < |x| then x[pos + |b|..] else [])
  }

  function Min(a: nat, b: nat): nat {
    if a <= b then a else b
  }

  /** The byte splice `insertAtPosition` performs on file content `c`: the first
      `min(k, |c|)` bytes, then `b`, then everything from that point on. */
  function Splice(c: Bytes, k: nat, b: Bytes): (r: Bytes)
    ensures |r| == |c| + |b|
    ensures r[..Min(k, |c|)] == c[..Min(k, |c|)]
    ensures r[Min(k, |c|)..Min(k, |c|) + |b|] == b
    ensures r[Min(k, |c|) + |b|..] == c[Min(k, |c|)..]
  {
    var m := Min(k, |c|);
    var r := c[..m] + b + c[m..];
    assert r[..m] == c[..m];
    assert r[m..m + |b|] == b;
    assert r[m + |b|..] == c[m..];
    r
  }

  /** Cutting the inserted bytes back out of a splice gives the original content. */
  lemma SpliceRemovable(c: Bytes, k: nat, b: Bytes)
    ensures var r := Splice(c, k, b);
            r[..Min(k, |c|)] + r[Min(k, |c|) + |b|..] == c
  {
    var r := Splice(c, k, b);
    var m := Min(k, |c|);
    assert c == c[..m] + c[m..];
  }

  /** `insertAtPosition` on file content `c`. A negative offset fails at the seek;
      `fail` is any other local file failure (open, create, copy, write, close, rename),
      after which the file is left as it was. */
  function InsertAtPosition(c: Bytes, offset: int, data: Bytes, fail: bool): (r: Option<Bytes>)
    ensures r.None? <==> fail || offset < 0
    ensures r.Some? ==> |r.value| == |c| + |data|
    ensures r.Some? && offset <= |c| ==> r.value == c[..offset] + data + c[offset..]
    ensures r.Some? && offset > |c| ==> r.value == c + data
  {
    if fail || offset < 0 then None else Some(Splice(c, offset, data))
  }

  /** The staging file name of a path: the cache directory, a backslash, the object name. */
  function StagingName(cfg: Config, path: string): string {
    cfg.cacheDir + "\\" + ObjectName(path)
  }

  /** Content of the staging file of `path` before `Write` opens it (no truncation:
      whatever an earlier write left there). */
  function Prior(fs: Fs, cfg: Config, path: string): Bytes {
    var name := StagingName(cfg, path);
    if name in fs.disk then fs.disk[name] else []
  }

  /** Content of the staging file once the remote object `c` has been copied over it. */
  function Staged(prior: Bytes, c: Bytes): (s: Bytes)
    ensures |s| == if |c| > |prior| then |c| else |prior|
    ensures s[..|c|] == c
    ensures |prior| > |c| ==> s[|c|..] == prior[|c|..]
  {
    var s := WriteAt(prior, 0, c);
    assert s[..|c|] == c;
    s
  }

  /** `Write`. The staging file is opened (created if missing) and becomes `CacheFile`
      before anything can fail. The object is fetched by the UNTRIMMED path; a missing
      object or a failed fetch gives `-EIO`. Offset 0 (or negative) writes `buff` at the
      file position `io.Copy` left, `|c|`; a positive offset splices, and a splice failure
      is only logged. */
  function Write(fs: Fs, cfg: Config, path: string, buff: Bytes, ofst: int,
                 fetchFail: bool, spliceFail: bool): (r: Reply)
    ensures r.fs.store == fs.store && r.fs.meta == fs.meta
    ensures r.fs.cache == Some(StagingName(cfg, path)) && StagingName(cfg, path) in r.fs.disk
    ensures forall n :: n != StagingName(cfg, path) ==>
              (n in r.fs.disk <==> n in fs.disk) && (n in fs.disk ==> r.fs.disk[n] == fs.disk[n])
    ensures r.code == -EIO <==> fetchFail || path !in fs.store
    ensures r.code != -EIO ==> r.code == |buff|
    ensures r.code == -EIO ==> r.fs.disk[StagingName(cfg, path)] == Prior(fs, cfg, path)
    ensures r.code != -EIO && ofst > 0 && spliceFail ==>
              r.fs.disk[StagingName(cfg, path)] == Staged(Prior(fs, cfg, path), fs.store[path])
    // the splice lands on the staged file, earlier leftovers included
    ensures r.code != -EIO && ofst > 0 && !spliceFail ==>
              r.fs.disk[StagingName(cfg, path)] == Splice(Staged(Prior(fs, cfg, path), fs.store[path]), ofst, buff)
    // offset 0 or below writes at the position the copy left, just past the object
    ensures r.code != -EIO && ofst <= 0 ==>
              r.fs.disk[StagingName(cfg, path)] ==
                WriteAt(Staged(Prior(fs, cfg, path), fs.store[path]), |fs.store[path]|, buff)
  {
    var name := StagingName(cfg, path);
    var prior := Prior(fs, cfg, path);
    var afterOpen := fs.(disk := fs.disk[name := prior], cache := Some(name));
    if fetchFail || path !in fs.store then Reply(-EIO, afterOpen)
    else
      var c := fs.store[path];
      var staged := Staged(prior, c);
      if ofst > 0 then
        match InsertAtPosition(staged, ofst, buff, spliceFail)
        case None => Reply(|buff|, afterOpen.(disk := fs.disk[name := staged]))
        case Some(spliced) => Reply(|buff|, afterOpen.(disk := fs.disk[name := spliced]))
      else
        Reply(|buff|, afterOpen.(disk := fs.disk[name := WriteAt(staged, |c|, buff)]))
  }

  /** Offset 0 over a prior staging file: the object's bytes, then the written bytes,
      then whatever of the old staging content lies beyond both. */
  lemma WriteAtZeroLayout(fs: Fs, cfg: Config, path: string, buff: Bytes, ofst: int)
    requires ofst <= 0 && path in fs.store
    ensures var c := fs.store[path];
            var p := Prior(fs, cfg, path);
            var s := Write(fs, cfg, path, buff, ofst, false, false).fs.disk[StagingName(cfg, path)];
            && |s| == (if |c| + |buff| > |p| then |c| + |buff| else |p|)
            && s[..|c|] == c
            && s[|c|..|c| + |buff|] == buff
            && (|c| + |buff| < |p| ==> s[|c| + |buff|..] == p[|c| + |buff|..])
  {
    var c := fs.store[path];
    var p := Prior(fs, cfg, path);
    var st := Staged(p, c);
    var s := WriteAt(st, |c|, buff);
    assert Write(fs, cfg, path, buff, ofst, false, false).fs.disk[StagingName(cfg, path)] == s;
    assert s[..|c|] == c by {
      forall i | 0 <= i < |c| ensures s[i] == c[i] {
        assert st[..|c|][i] == st[i];
      }
    }
    if |c| + |buff| < |p| {
      forall j | |c| + |buff| <= j < |p|
        ensures s[j] == p[j]
      {
        assert st[|c|..][j - |c|] == p[|c|..][j - |c|];
      }
      assert s[|c| + |buff|..] == p[|c| + |buff|..];
    }
  }

  /** From an empty staging area, a write at offset 0 stages the object followed by the data. */
  lemma WriteFromEmptyAppends(fs: Fs, cfg: Config, path: string, buff: Bytes)
    requires path in fs.store && StagingName(cfg, path) !in fs.disk
    ensures Write(fs, cfg, path, buff, 0, false, false).fs.disk[StagingName(cfg, path)] ==
              fs.store[path] + buff
  {
    WriteAtZeroLayout(fs, cfg, path, buff, 0);
    var c := fs.store[path];
    var s := Write(fs, cfg, path, buff, 0, false, false).fs.disk[StagingName(cfg, path)];
    assert s == s[..|c|] + s[|c|..|c| + |buff|];
  }

  /** From an empty staging area, a write at a positive offset stages the splice of the
      data into the object: `c[..m] + buff + c[m..]` with `m = min(ofst, |c|)`. */
  lemma WriteFromEmptySplices(fs: Fs, cfg: Config, path: string, buff: Bytes, ofst: nat)
    requires ofst > 0 && path in fs.store && StagingName(cfg, path) !in fs.disk
    ensures var c := fs.store[path];
            var m := Min(ofst, |c|);
            Write(fs, cfg, path, buff, ofst, false, false).fs.disk[StagingName(cfg, path)] ==
              c[..m] + buff + c[m..]
  {
    var c := fs.store[path];
    var st := Staged([], c);
    assert st == c;
    var m := Min(ofst, |c|);
    var s := Splice(c, ofst, buff);
    assert s == s[..m] + s[m..m + |buff|] + s[m + |buff|..];
  }

  /** `Release`. It reads the file `CacheFile` names, whatever path it is called with
      (the source dereferences `CacheFile` and the file's stat, so both must exist),
      uploads it as the whole object under the `/`-trimmed path, and only then deletes it. */
  function Release(fs: Fs, path: string, uploadFail: bool, removeFail: bool): (r: Reply)
    requires fs.cache.Some? && fs.cache.value in fs.disk
    ensures r.fs.meta == fs.meta && r.fs.cache == fs.cache
    ensures uploadFail ==> r == Reply(-EIO, fs)
    ensures !uploadFail ==> PutOnly(fs.store, r.fs.store, ObjectName(path), fs.disk[fs.cache.value])
    ensures !uploadFail && removeFail ==> r.code == -EIO && r.fs.disk == fs.disk
    ensures !uploadFail && !removeFail ==>
              r.code == 0 && r.fs.disk == fs.disk - {fs.cache.value}
  {
    var name := fs.cache.value;
    var content := fs.disk[name];
    if uploadFail then Reply(-EIO, fs)
    else
      var uploaded := fs.(store := fs.store[ObjectName(path) := content]);
      if removeFail then Reply(-EIO, uploaded)
      else Reply(0, uploaded.(disk := fs.disk - {name}))
  }

  /** Round trip: from an empty staging area, `Write(path, buff, 0)` then `Release(path)`
      leaves the object `c + buff` under the trimmed name, where `c` is what the untrimmed
      key held, and the staging file is gone. */
  lemma WriteReleaseRoundTrip(fs: Fs, cfg: Config, path: string, buff: Bytes)
    requires path in fs.store && StagingName(cfg, path) !in fs.disk
    ensures var w := Write(fs, cfg, path, buff, 0, false, false);
            var r := Release(w.fs, path, false, false);
            && r.code == 0
            && ObjectName(path) in r.fs.store
            && r.fs.store[ObjectName(path)] == fs.store[path] + buff
            && StagingName(cfg, path) !in r.fs.disk
  {
    WriteFromEmptyAppends(fs, cfg, path, buff);
  }

  /** The staging slot is shared: after writing `p1`, releasing a different path `p2`
      uploads what was staged for `p1` under `p2`'s name. */
  lemma ReleaseUploadsLastStaged(fs: Fs, cfg: Config, p1: string, p2: string, buff: Bytes)
    requires p1 in fs.store && StagingName(cfg, p1) !in fs.disk
    ensures var w := Write(fs, cfg, p1, buff, 0, false, false);
            Release(w.fs, p2, false, false).fs.store[ObjectName(p2)] == fs.store[p1] + buff
  {
    WriteFromEmptyAppends(fs, cfg, p1, buff);
  }

  /** A failed upload keeps the staging file; a failed delete comes after the upload. */
  lemma ReleaseFailureModes(fs: Fs, path: string)
    requires fs.cache.Some? && fs.cache.value in fs.disk
    ensures Release(fs, path, true, false).fs.disk == fs.disk
    ensures Release(fs, path, true, true).fs.store == fs.store
    ensures var r := Release(fs, path, false, true);
            r.code == -EIO && r.fs.store[ObjectName(path)] == fs.disk[fs.cache.value]
  {
  }
}
